=== FILE: README.md ===
# menoh-java lifecycle and data-marshalling model

A Dafny model of menoh-java, the Java (JNA) binding of the Menoh inference engine. It covers:

- the error-code and data-type enums;
- turning engine status codes into `MenohException`s;
- copying Java buffers and float arrays into native memory, and the two array-staging paths;
- the `AutoCloseable` wrappers around engine objects: `ModelData`, `VariableProfileTableBuilder`, `VariableProfileTable`, `ModelBuilder` and `Model`;
- the facade layer: `ModelRunnerBuilder` and `ModelRunner`;
- the first-generation schema builder (`src/...`), where its behaviour differs from the current one.

The engine itself is opaque. Every foreign call is a value of `Native.Call`. Its reply (status, integer result, pointer result, last-error message) comes from an `Oracle`, which is a parameter of every operation: a function from the oracle step and the call to a reply.

The engine state is an `Engine` record holding:
- the set of live object ids and the counter that hands out fresh ones;
- the oracle step;
- the last error message;
- the native memory behind variable buffers;
- the temporary JNA allocations;
- the log of calls.

A Java `HashMap` is an association list of its bindings. The order in which `entrySet()` visits a `HashMap` comes from hash codes and the table capacity, which are not modelled. `RunnerBuilders.Build` therefore takes that order as a parameter: any permutation of the bindings. Its contract holds for every such order.

Every wrapper is an immutable datatype holding its handle, `Null` once closed. An operation returns the new wrapper, the new engine and a `Result`/`Outcome` standing for the Java return or exception. Java's 32- and 64-bit integers are subset types, and wrap-around is written out (`JavaInt.WrapInt`, `JavaInt.WrapLong`).

The properties proved are lifecycle properties:
- close is idempotent;
- a failure leaks no engine object;
- `ModelRunnerBuilder.build` releases its intermediates on every path;
- the model builder and the model keep independent lists of attached buffers.

The rest are marshalling properties:
- bytes copied equal the readable window;
- `bufferLength` is computed in 64-bit arithmetic;
- data is written into a variable buffer only when it fits;
- the runner's map has last-write-wins semantics;
- enum round trips.

## Model

| member | source | states |
|---|---|---|
| Errors.ValueOf | menoh/src/main/java/jp/preferred/menoh/ErrorCode.java:39-49 | succeeds exactly for ids 0..16 and returns the constant with that id (never UNDEFINED); any other value, including `Integer.MAX_VALUE` whose `value + 1` wraps, throws UNDEFINED "The error code is undefined: <value>" |
| Errors.ValuesTable | menoh/src/main/java/jp/preferred/menoh/ErrorCode.java:7-24 | the declaration order puts UNDEFINED first and the constant with id i-1 at index i, which `valueOf`'s `index = value + 1` relies on |
| Errors.ValueOfGetId | menoh/src/main/java/jp/preferred/menoh/ErrorCode.java:35-49 | `valueOf(getId(c)) == c` for every constant but UNDEFINED, whose id is refused |
| Errors.ValueOfIntMax | menoh/src/test/java/jp/preferred/menoh/ErrorCodeTest.java:47-51 | `Integer.MAX_VALUE + 1` wraps to `Integer.MIN_VALUE`, so `valueOf(Integer.MAX_VALUE)` throws UNDEFINED |
| Errors.CheckErrorAsWritten | src/main/java/jp/preferred/menoh/MenohException.java:45-59 | status 0 passes; every other status throws UNDEFINED with the raw engine message, because the exception built for a known code is caught by the method's own catch and becomes the cause |
| Errors.CheckError | src/main/java/jp/preferred/menoh/MenohException.java:45-59 | corrected: status 0 passes; a known code throws that code with "<lower-case name>: <engine message>"; an unknown code throws UNDEFINED with the engine message and `valueOf`'s exception as cause |
| Errors.CheckErrorLosesCode | src/main/java/jp/preferred/menoh/MenohException.java:48-57 | for status 1 the code as written reports UNDEFINED where STD_ERROR with message "std_error: ..." is intended |
| Errors.CheckErrorAsWrittenWrapsCorrected | src/main/java/jp/preferred/menoh/MenohException.java:48-57 | the code as written throws an UNDEFINED wrapper whose cause is exactly the corrected exception (known code) or `valueOf`'s exception (unknown code) |
| Errors.CheckErrorVariableNotFound | src/main/java/jp/preferred/menoh/MenohException.java:45-59 | corrected `checkError(9)` throws VARIABLE_NOT_FOUND with "variable_not_found: <engine message>" and no cause |
| Errors.CheckErrorInvalidBackendName | src/main/java/jp/preferred/menoh/MenohException.java:45-59 | corrected `checkError(12)` throws INVALID_BACKEND_NAME with "invalid_backend_name: <engine message>" and no cause |
| DTypes.Size | menoh/src/main/java/jp/preferred/menoh/DType.java:25-33 | the element size is positive, 4 for FLOAT |
| DTypes.ValueOf | menoh/src/main/java/jp/preferred/menoh/DType.java:38-47 | succeeds exactly for ids in range and returns the constant with that id; otherwise throws UNDEFINED "undefined dtype: <value>" |
| DTypes.ValueOfGetId | menoh/src/main/java/jp/preferred/menoh/DType.java:18-20 | `valueOf(getId(d)) == d` for every dtype; id 0 is FLOAT |
| DTypes.ValueOfExtremes | menoh/src/test/java/jp/preferred/menoh/DTypeTest.java:23-33 | `Integer.MIN_VALUE` and `Integer.MAX_VALUE` are refused with UNDEFINED |
| Variables.DimsOf | menoh/src/main/java/jp/preferred/menoh/Variable.java:31-37 | `dims()` returns the stored dims, or an empty array when none were stored |
| Variables.ProfileAccessors | menoh/src/main/java/jp/preferred/menoh/VariableProfile.java:18-31 | a profile's `dtype()` and `dims()` return what it was built with (empty dims for null) |
| Variables.BufferLength | menoh/src/main/java/jp/preferred/menoh/Variable.java:50-66 | succeeds exactly when dims are non-empty and the 64-bit wrapped product is positive, and then equals size × product when no overflow occurs; otherwise UNDEFINED "buffer is empty" (NPE on null dims) |
| JavaInt.WrapLongMul | menoh/src/main/java/jp/preferred/menoh/Variable.java:53-56 | wrapping the running product to a `long` after each `length *= d` gives the same result as wrapping the exact product once, which is what lets the loop be compared with the whole product |
| Variables.ComputeBufferLength | menoh/src/main/java/jp/preferred/menoh/Variable.java:50-66 | the Java loop, multiplying in `long` with wrap-around at each step, computes the same result as the wrapped whole product |
| Variables.ProdPositive | menoh/src/main/java/jp/preferred/menoh/Variable.java:53-60 | the dims product is positive iff no dim is zero and an even number are negative, and negative iff none is zero and an odd number are negative |
| Variables.BufferLengthSign | menoh/src/main/java/jp/preferred/menoh/Variable.java:51-64 | when the product fits in a long, `bufferLength` succeeds iff no dim is zero and the negative dims are even in number |
| Variables.View | menoh/src/main/java/jp/preferred/menoh/Variable.java:43-45 | `buffer()` is the first `bufferLength()` bytes at the variable's native address, and fails with `bufferLength`'s exception before touching memory |
| Buffers.CopyBuffer | menoh/src/main/java/jp/preferred/menoh/BufferUtils.java:26-56 | a null or empty buffer throws IAE "buffer must not be null or empty"; otherwise the native bytes equal the buffer's bytes from position to limit, shared in place iff the buffer is direct, starting at its position |
| Buffers.Get | menoh/src/main/java/jp/preferred/menoh/BufferUtils.java:49-50 | a bulk `get` of n bytes through a duplicate reads the first n readable bytes and advances only the duplicate's position |
| Buffers.CopyFloatsRegion | menoh/src/main/java/jp/preferred/menoh/BufferUtils.java:68-74 | null or empty array throws IAE; a non-positive length fails the allocation; an out-of-range region fails; otherwise the copied bytes are the region's floats in order |
| Buffers.CopyFloatsAsWritten | menoh/src/main/java/jp/preferred/menoh/BufferUtils.java:68-77 | as written: 4·length bytes are copied but the returned window is `length` bytes |
| Buffers.CopyFloats | menoh/src/main/java/jp/preferred/menoh/BufferUtils.java:68-77 | corrected: the same guards, and the returned window shows exactly the 4·length bytes of the region |
| Buffers.CopyFloatsWindowTooSmall | menoh/src/main/java/jp/preferred/menoh/BufferUtils.java:76 | for one float the window as written is 1 byte, while the corrected window is the float's 4 bytes |
| Buffers.StageFloats | menoh/src/main/java/jp/preferred/menoh/ModelRunner.java:157-159 | `allocateDirect(length * 4)` then `put(values, offset, length)`: succeeds exactly for a non-null array, an in-range region and 4·length ≤ `Integer.MAX_VALUE`, giving a direct buffer whose readable bytes are the region's floats |
| Native.Invoke | src/main/java/jp/preferred/menoh/MenohNative.java:13-59 | a foreign call consumes one oracle step, is logged, and records the engine's message on failure; no handle changes |
| Native.Check | src/main/java/jp/preferred/menoh/MenohException.java:45-47 | a zero status changes nothing; a non-zero one reads the last error message and yields `CheckError`'s exception |
| Native.Create | menoh/src/main/java/jp/preferred/menoh/ModelData.java:46-51 | a `make`/`build` call succeeds iff its status is 0, and then returns a fresh id and adds exactly it to the live set; on failure nothing is allocated |
| Native.Perform | menoh/src/main/java/jp/preferred/menoh/ModelData.java:27-31 | a status-only call followed by `checkError`: the outcome is `CheckError` of the reply, and no handle changes |
| Native.QueryInt | menoh/src/main/java/jp/preferred/menoh/VariableProfileTable.java:37-38 | an `IntByReference` query returns the engine's value iff the status is 0; otherwise it throws `Errors.CheckError`'s exception for the reply after reading the last error |
| Native.QueryPtr | menoh/src/main/java/jp/preferred/menoh/Model.java:48-49 | a `PointerByReference` query returns the engine's pointer iff the status is 0; otherwise it throws `Errors.CheckError`'s exception for the reply |
| Native.Release | menoh/src/main/java/jp/preferred/menoh/Model.java:22-30 | releasing an open handle issues the delete call once and removes exactly that id; a NULL handle changes nothing |
| Native.QueryDims | menoh/src/main/java/jp/preferred/menoh/VariableProfileTable.java:43-49 | a negative size fails like `new int[n]`; otherwise the dims are the engine's answers in index order, one call per index, and the loop succeeds iff every call does |
| Native.QueryDimsFrom | menoh/src/main/java/jp/preferred/menoh/VariableProfileTable.java:45-49 | the loop from index i: the answers for i.., the calls logged in order, the first failure aborting |
| Native.QuerySchema | menoh/src/main/java/jp/preferred/menoh/VariableProfileTable.java:36-49 | dtype, dims size, then each dim; succeeds iff all those calls do, and logs exactly them in order; the first failure stops the sequence, and a failing dtype or dims-size query throws `Errors.CheckError`'s exception for the reply |
| Profiles.CloseTable | menoh/src/main/java/jp/preferred/menoh/VariableProfileTable.java:23-31 | closing deletes the table once and sets the handle to NULL; on a closed table it does nothing |
| Profiles.ProfileOf | menoh/src/main/java/jp/preferred/menoh/VariableProfileTable.java:36-52 | `variableProfile` returns the engine's dtype and dims; it succeeds iff the schema queries all succeed (`Native.QuerySchema`) and the dtype id is known, so the first failing dtype, dims-size or dims-at query aborts it; a failing dtype or dims-size query throws `Errors.CheckError`'s exception for the reply and is followed by nothing but the error read |
| Profiles.ProfileOfUnknownDType | menoh/src/main/java/jp/preferred/menoh/VariableProfileTable.java:36-51 | a scalar reported with dtype 7 throws exactly UNDEFINED "undefined dtype: 7", and only after both the dtype and the dims-size calls were made |
| Profiles.NewBuilder | menoh/src/test/java/jp/preferred/menoh/VariableProfileTableTest.java:11-23 | `VariableProfileTable.builder()` yields a builder with a fresh handle iff the engine accepts; on failure nothing is allocated and it throws `Errors.CheckError`'s exception for the reply; memory is untouched either way |
| Profiles.CloseBuilder | menoh/src/main/java/jp/preferred/menoh/VariableProfileTableBuilder.java:26-34 | closing deletes the builder once and sets the handle to NULL; a second close does nothing |
| Profiles.AddInputProfile | menoh/src/main/java/jp/preferred/menoh/VariableProfileTableBuilder.java:45-53 | empty dims throw IAE with no engine change; otherwise the dims go to one native call with their count, a failing call throws `Errors.CheckError`'s exception for the reply, and the temporary native copy is disposed of whether or not the call succeeds |
| Profiles.WithTemporaryArray | menoh/src/main/java/jp/preferred/menoh/VariableProfileTableBuilder.java:46-50 | the dims' temporary native copy is allocated before the call and disposed of after it on both outcomes; the outcome is `Errors.CheckError`'s exception for the reply |
| Profiles.AddInputProfileAnyRank | menoh/src/test/java/jp/preferred/menoh/VariableProfileTableTest.java:33-38 | a rank-5 input profile is forwarded like any other rank |
| Profiles.AddOutputName | menoh/src/main/java/jp/preferred/menoh/VariableProfileTableBuilder.java:60-64 | one native call with the name; returns the same builder iff it succeeds, and otherwise throws `Errors.CheckError`'s exception for the reply |
| Profiles.AddOutputProfile | menoh/src/main/java/jp/preferred/menoh/VariableProfileTableBuilder.java:73-76 | logs exactly the `add_output_name` call, whatever the dtype |
| Profiles.AddOutputProfileIgnoresDType | menoh/src/main/java/jp/preferred/menoh/VariableProfileTableBuilder.java:73-76 | `addOutputProfile` with any dtype behaves exactly like `addOutputName` |
| Profiles.Build | menoh/src/main/java/jp/preferred/menoh/VariableProfileTableBuilder.java:81-87 | `build(modelData)` yields a table with a fresh handle iff the engine accepts, leaving the builder open; on failure nothing is allocated and it throws `Errors.CheckError`'s exception for the reply |
| Profiles.BuildVariableNotFound | menoh/src/test/java/jp/preferred/menoh/VariableProfileTableTest.java:132-151 | a schema naming a variable the model lacks (engine status 9) makes `build` throw VARIABLE_NOT_FOUND with message "variable_not_found: <engine message>", allocating nothing |
| ModelDatas.Close | menoh/src/main/java/jp/preferred/menoh/ModelData.java:33-41 | closing deletes the model data once and sets the handle to NULL; on closed data it does nothing |
| ModelDatas.CloseIdempotent | menoh/src/test/java/jp/preferred/menoh/ModelDataTest.java:54-62 | a second `close()` changes nothing |
| ModelDatas.Optimize | menoh/src/main/java/jp/preferred/menoh/ModelData.java:27-31 | one native call with both handles; returns the same object iff the status is 0, and otherwise throws `Errors.CheckError`'s exception for the reply after reading the last error |
| ModelDatas.FromOnnxFile | menoh/src/main/java/jp/preferred/menoh/ModelData.java:46-51 | a model data with a fresh handle iff the engine accepts the path; otherwise `checkError`'s exception and nothing allocated |
| Models.NewBuilder | menoh/src/test/java/jp/preferred/menoh/ModelTest.java:14-38 | `Model.builder(vpt)` yields a builder with a fresh handle and an empty attached list iff the engine accepts; otherwise it throws `Errors.CheckError`'s exception for the reply and allocates nothing |
| Models.CloseBuilder | menoh/src/main/java/jp/preferred/menoh/ModelBuilder.java:45-53 | closing an open builder deletes it, sets NULL and clears the attached list; closing a closed one changes nothing |
| Models.CloseBuilderIdempotent | menoh/src/test/java/jp/preferred/menoh/ModelTest.java:41-76 | a second builder `close()` changes nothing |
| Models.AttachImpl | menoh/src/main/java/jp/preferred/menoh/ModelBuilder.java:147-152 | one native attach with the builder handle, name and bridged buffer; its outcome is exactly `Errors.CheckError`'s exception for the reply (passes iff the status is 0) |
| Models.AttachBuffer | menoh/src/main/java/jp/preferred/menoh/ModelBuilder.java:77-96 | a null or empty buffer throws IAE "data must not be null or empty" and changes nothing; otherwise the bridge (shared iff direct, showing the readable bytes) is appended to the list before the one native attach, stays there if the attach fails, and the outcome is `Errors.CheckError`'s exception for the reply |
| Models.AttachFloats | menoh/src/main/java/jp/preferred/menoh/ModelBuilder.java:137-145 | with the corrected copy `Buffers.CopyFloats`: a failed copy changes nothing; otherwise the copy, showing the region's 4·length bytes, is appended and then attached in one native call whose outcome is `Errors.CheckError`'s exception for the reply |
| Models.AttachAllFloats | menoh/src/main/java/jp/preferred/menoh/ModelBuilder.java:114-116 | with the corrected copy: a null array throws NPE; an empty one IAE; otherwise exactly one entry showing the whole array's bytes is appended |
| Models.Build | menoh/src/main/java/jp/preferred/menoh/ModelBuilder.java:160-168 | on success a model with a fresh handle and a copy of the builder's list; on failure nothing is allocated and it throws `Errors.CheckError`'s exception for the reply; exactly the build call is logged |
| Models.BuildInvalidBackendName | menoh/src/test/java/jp/preferred/menoh/ModelTest.java:200-222 | an unknown backend (engine status 12) makes `build` throw INVALID_BACKEND_NAME with message "invalid_backend_name: <engine message>", allocating nothing |
| Models.CloseModel | menoh/src/test/java/jp/preferred/menoh/ModelTest.java:137-143 | closing an open model deletes it, sets NULL and clears its list; closing a closed one changes nothing |
| Models.CloseModelIdempotent | menoh/src/test/java/jp/preferred/menoh/ModelTest.java:150-151 | a second model `close()` changes nothing |
| Models.ClosesAreIndependent | menoh/src/test/java/jp/preferred/menoh/ModelTest.java:157-196 | after a build, closing the builder empties only its list and leaves the model open with the built list; closing the model then frees only the model |
| Models.GetVariable | menoh/src/main/java/jp/preferred/menoh/Model.java:32-52 | `getVariable` returns the engine's dtype, dims and buffer pointer from calls in that order; it succeeds iff the schema queries all succeed (`Native.QuerySchema`), the buffer-handle query that follows them succeeds and the dtype id is known, so a failure of any of the four queries aborts it; a failing dtype or dims-size query throws `Errors.CheckError`'s exception for the reply and is followed by nothing but the error read |
| Models.Resolve | menoh/src/main/java/jp/preferred/menoh/Model.java:48-51 | after the schema: succeeds iff the buffer-handle query does and the dtype id is known; an unknown id throws "undefined dtype: <id>" after that query |
| Models.GetVariableUnknownDType | menoh/src/main/java/jp/preferred/menoh/Model.java:48-51 | an unknown dtype id throws "undefined dtype: 7" only after the buffer-handle query was made |
| Models.Run | menoh/src/main/java/jp/preferred/menoh/Model.java:54-56 | `run()` is one native call whose outcome is exactly `Errors.CheckError`'s exception for the reply; no handle changes |
| RunnerBuilders.Lookup | menoh/src/main/java/jp/preferred/menoh/ModelRunnerBuilder.java:22 | a name has a binding iff it is among the map's names |
| RunnerBuilders.Put | menoh/src/main/java/jp/preferred/menoh/ModelRunnerBuilder.java:115 | `put` binds the name to the new buffer, leaves every other binding alone, keeps names unique, and appends only a new name |
| RunnerBuilders.PutTwice | menoh/src/main/java/jp/preferred/menoh/ModelRunnerBuilder.java:114-117 | attaching twice under one name equals attaching the second buffer once |
| RunnerBuilders.SetBackendName | menoh/src/main/java/jp/preferred/menoh/ModelRunnerBuilder.java:45-52 | the setter changes the backend name and nothing else |
| RunnerBuilders.SetBackendConfig | menoh/src/main/java/jp/preferred/menoh/ModelRunnerBuilder.java:54-61 | the setter changes the backend configuration and nothing else |
| RunnerBuilders.Close | menoh/src/main/java/jp/preferred/menoh/ModelRunnerBuilder.java:67-74 | closes the schema builder then the model data and clears the map: whichever of the two are open are deleted, in that order, and nothing else is logged |
| RunnerBuilders.CloseIdempotent | menoh/src/test/java/jp/preferred/menoh/ModelRunnerTest.java:127-154 | a second `close()` makes no engine call and changes nothing |
| RunnerBuilders.AddInputProfile | menoh/src/main/java/jp/preferred/menoh/ModelRunnerBuilder.java:81-84 | delegates to the schema builder, with its engine effect and its exception, returning the same runner builder |
| RunnerBuilders.AddOutputProfile | menoh/src/main/java/jp/preferred/menoh/ModelRunnerBuilder.java:91-94 | delegates as `addOutputName` on the schema builder, returning the same runner builder |
| RunnerBuilders.AttachBuffer | menoh/src/main/java/jp/preferred/menoh/ModelRunnerBuilder.java:114-117 | binds the name to the buffer (null allowed) and changes nothing else |
| RunnerBuilders.AttachFloats | menoh/src/main/java/jp/preferred/menoh/ModelRunnerBuilder.java:150-161 | succeeds iff staging succeeds, and then binds the name to a direct buffer holding the region's floats |
| RunnerBuilders.AttachAllFloats | menoh/src/main/java/jp/preferred/menoh/ModelRunnerBuilder.java:131-133 | a null array throws NPE; a non-null array small enough binds the name to a buffer holding all its floats |
| RunnerBuilders.Bridge | menoh/src/main/java/jp/preferred/menoh/ModelBuilder.java:82-89 | the bridge of one non-null, non-empty binding is well formed, shows its readable bytes, and is shared iff the buffer is direct |
| RunnerBuilders.Bridged | menoh/src/main/java/jp/preferred/menoh/ModelBuilder.java:82-89 | the bridges of attachable bindings, in the list's order: the k-th is the bridge of the k-th binding |
| RunnerBuilders.BridgedAppend | menoh/src/main/java/jp/preferred/menoh/ModelRunnerBuilder.java:174-176 | bridging a concatenation is concatenating the bridges |
| RunnerBuilders.AttachablePermutation | menoh/src/main/java/jp/preferred/menoh/ModelRunnerBuilder.java:174-176 | whether every binding is attachable does not depend on the order the map is visited in |
| RunnerBuilders.MapPermutation | menoh/src/main/java/jp/preferred/menoh/ModelRunnerBuilder.java:174-176 | mapping two orderings of the same elements through one function gives two orderings of the same results |
| RunnerBuilders.BridgedPermutation | menoh/src/main/java/jp/preferred/menoh/ModelRunnerBuilder.java:174-176 | in any visiting order of the map, the bridges are the same multiset: one per binding |
| RunnerBuilders.AttachAll | menoh/src/main/java/jp/preferred/menoh/ModelRunnerBuilder.java:174-176 | attaching the bindings in a given order passes iff every binding is non-null and non-empty and the engine accepts the k-th attach call at the k-th step (`RunnerBuilders.Accepted`); it then appends their bridges in that order |
| RunnerBuilders.Compile | menoh/src/main/java/jp/preferred/menoh/ModelRunnerBuilder.java:174-182 | attach all in the given order, optimize, build: a failed attach is the result; after passing attaches the result is exactly `OptimizeAndBuild` on the attached builder; on success `modelData.optimize(vpt)` succeeded and was logged and exactly one fresh model holds the bridges of all bindings in that order; on failure nothing allocated |
| RunnerBuilders.OptimizeAndBuild | menoh/src/main/java/jp/preferred/menoh/ModelRunnerBuilder.java:178-181 | optimize, then build only if that passed: succeeds iff both statuses are 0; a failed optimize logs no build call; on success the log is exactly the optimize then the build call, and one fresh model holds the builder's list |
| RunnerBuilders.Build | menoh/src/main/java/jp/preferred/menoh/ModelRunnerBuilder.java:169-184 | for every `entrySet()` order of the map: a failing table build or model-builder creation is the result, and otherwise the result is `Compile`'s; on every path the intermediate table and model builder are released, so failure leaves the live set as before and success adds only the fresh model; on success every binding was attachable, the model data was optimized against the new table (which is then deleted), and the model's list is the bridges in that order |
| RunnerBuilders.BuildBridgesEveryBinding | menoh/src/main/java/jp/preferred/menoh/ModelRunnerBuilder.java:169-184 | whatever order the map is visited in, a built model holds exactly one bridge per binding of the map |
| RunnerBuilders.BuildRefusesNullBuffer | menoh/src/main/java/jp/preferred/menoh/ModelBuilder.java:78-80 | for every visiting order, a null buffer bound in the runner builder's map makes `build()` throw, leaking nothing |
| Runners.Close | menoh/src/main/java/jp/preferred/menoh/ModelRunner.java:33-36 | closes the model: its handle becomes NULL and exactly its id is freed; a second close does nothing |
| Runners.FromOnnxFile | menoh/src/main/java/jp/preferred/menoh/ModelRunner.java:108-131 | succeeds iff both creations succeed, giving defaults "mkldnn"/"" and an empty map; if the schema builder fails the model data is closed, so a failure leaves nothing allocated |
| Runners.GetVariable | menoh/src/main/java/jp/preferred/menoh/ModelRunner.java:136-138 | the runner's variable is exactly the model's `getVariable` result, failures included (so any failing query of the four throws): a failing dtype query throws; on success the dtype has the reported id, the dims are the reported answers in index order, and the buffer pointer is as reported |
| Runners.WritePrefix | menoh/src/main/java/jp/preferred/menoh/ModelRunner.java:220-222 | writing n bytes at the start of a region puts them there, keeps the rest of the region and every other region, and keeps the memory's shape |
| Runners.AssignOne | menoh/src/main/java/jp/preferred/menoh/ModelRunner.java:207-223 | null data throws NPE; data longer than the variable buffer throws the runner exception with the length and name; on success the buffer starts with the data's readable bytes, the rest and all other memory unchanged |
| Runners.AssignToVariables | menoh/src/main/java/jp/preferred/menoh/ModelRunner.java:206-224 | the loop passes only if every binding is non-null, keeps the memory's shape, and an empty map changes nothing |
| Runners.AssignToVariablesAppend | menoh/src/main/java/jp/preferred/menoh/ModelRunner.java:207-223 | assigning `d1 + d2` is assigning `d1`, then `d2` only if that passed; bytes copied before a failure stay copied |
| Runners.AssignThenView | menoh/src/main/java/jp/preferred/menoh/Variable.java:43-45 | after a successful assignment, the variable's `buffer()` view of the new memory succeeds and begins with the data's readable bytes |
| Runners.AssignSingleton | menoh/src/main/java/jp/preferred/menoh/ModelRunner.java:176-178 | a one-binding map is one assignment |
| Runners.Run | menoh/src/main/java/jp/preferred/menoh/ModelRunner.java:199-201 | exactly `Model.run()` on the runner's model (`Models.Run`): one call whose outcome is `Errors.CheckError`'s exception for the reply |
| Runners.RunMap | menoh/src/main/java/jp/preferred/menoh/ModelRunner.java:191-194 | a failed assignment is the result and no run call follows; after a passing assignment the result is exactly `Run` on the assigned engine, so it passes iff the assignment passes and the run status is 0; on success all bindings were non-null and the last call logged is the run |
| Runners.RunBuffer | menoh/src/main/java/jp/preferred/menoh/ModelRunner.java:176-178 | exactly `RunMap` with the one binding; on success the variable's buffer starts with the data's readable bytes and the model was run |
| Runners.RunFloats | menoh/src/main/java/jp/preferred/menoh/ModelRunner.java:157-162 | a staging failure makes no engine call; a staged buffer is passed to `RunBuffer`, which gives the result; on success the variable's buffer starts with the region's floats |
| Runners.RunAllFloats | menoh/src/main/java/jp/preferred/menoh/ModelRunner.java:146-148 | a null array throws NPE; otherwise the result is `RunFloats` over the whole array; on success the variable's buffer starts with all the floats |
| LegacyProfiles.AddInputProfile | src/main/java/jp/preferred/menoh/VariableProfileTableBuilder.java:32-46 | rank 2 and 4 go to their own entry point with the dims spread as arguments, and the outcome is `Errors.CheckError`'s exception for the reply; any other rank throws UNDEFINED "<name> has an invalid dims size: <n> (it must be 2 or 4)" with no engine call |
| LegacyProfiles.RankThreeRefused | src/main/java/jp/preferred/menoh/VariableProfileTableBuilder.java:41-45 | a rank-3 input is refused with the exact message and no engine change |
| LegacyProfiles.AddOutputProfile | src/main/java/jp/preferred/menoh/VariableProfileTableBuilder.java:48-51 | one native call that carries the dtype id; its outcome is exactly `Errors.CheckError`'s exception for the reply |

## Left out

- Variables.View: a native region shorter than `bufferLength()` bytes is modelled as a failure (`NativeFault`), and `Runners.AssignOne` then fails with memory unchanged; the source does no such check (`getByteBuffer` on a raw JNA `Pointer` reads past the region, undefined behaviour), so the model says nothing about what happens then.
- Inference itself: `Models.Run` and the runners' run calls do not change native memory, so output values are not modelled.
- Aliasing between an attached direct buffer and the variable's native buffer is not modelled; they are separate in the model.
- `synchronized` blocks: the model is sequential.
- Byte order and float values: a float is its 4 bytes (`Buffers.F32`), so `ByteOrder.nativeOrder()` is not modelled.
- `DisposableMemory` and JNA internals: a temporary allocation is an `Allocate`/`Dispose` pair in the log, and a `Memory` is the `NativeBuffer` it exposes.
- `MenohNative` is used only as the list of foreign calls (`Native.Call`).
- The example program `Vgg16` and the test-model generator `make_onnx.py` are not part of this model.
- `MenohRunnerException` is the `Errors.Exception` constructor of that name; the old `Variable` and `VariableProfile` classes have only getters and are covered by the current ones.
- Null arguments are modelled only where the code checks them or the model's inputs can be null: buffers, float arrays, and the first-generation dims. A null name, a null `ModelData`, or null dims passed to the current `addInputProfile` would throw NPE and are not modelled.
- `Model.variable(name)`, which `ModelRunner` calls, is not part of this model; it is modelled as `Model.getVariable(name)` (`Models.GetVariable`).
- `ModelRunner.fromOnnx(byte[], ...)` and `fromOnnx(ByteBuffer)` use `ModelData.fromOnnx`, which is not part of this model. They share `Runners.FromOnnxFile`'s cleanup structure.
- The text of engine messages is opaque: the oracle supplies it.
- The current tree's `MenohException` is not part of this model. Its test expects messages ending in " (std_error)"; `Errors.CheckError` follows the first-generation format.
- `Native.Check`, and so every modelled engine call, uses the corrected `Errors.CheckError` (see "## Findings"), not the first-generation `checkError` as written (`Errors.CheckErrorAsWritten`), which reports every failure as UNDEFINED.
- `Model.builder(vpt)`, `VariableProfileTable.builder()`, `BufferUtils.convertToNativeMemory` and the `int[]` overload of `copyToNativeMemory` are called by the modelled code but not part of this model:
  - the two builders are modelled as one `make` call each;
  - the direct-buffer bridge is modelled as the zero-copy window of `Buffers.CopyBuffer`;
  - the `int[]` copy is modelled with the `float[]` copy's guard (empty dims throw IAE).
- `Model` (menoh/src/main/java/jp/preferred/menoh/Model.java) has no attached-buffer list, but `ModelBuilder.build` passes one and `ModelTest` checks it. `Models.CloseModel` follows the builder and the tests: it clears the list on close.
- `Profiles.AddInputProfile`: the native call receives the dims as a value, so the `share(0, dims.length)` window size of the `int[]` copy is not modelled.
- `Models.AttachBuffer`: the window a direct buffer is shared through is `Buffers.CopyBuffer`'s zero-copy branch; `convertToNativeMemory` itself is not part of this model.
- The first-generation `make`, `close` and `buildVariableProfileTable` of the schema builder, and the first-generation `ModelData`, behave like `Profiles.NewBuilder`, `Profiles.CloseBuilder`, `Profiles.Build` and `ModelDatas`, and are covered by those members. The first-generation `DType` is `DTypes` with the constant spelled `Float`.
- `Models.AttachFloats` uses the corrected `Buffers.CopyFloats` (see "## Findings"), so the appended window shows all 4·length bytes of the copy. The code as written (`Buffers.CopyFloatsAsWritten`) exposes only `length` bytes.
- `Models.AttachAllFloats` delegates to `Models.AttachFloats` and so also uses the corrected copy.
- `RunnerBuilders.Build`: `HashMap`'s actual `entrySet()` order is not computed; the order is a parameter, and the contract is stated for every permutation of the bindings. Which permutation a given map yields, and so which binding's failure is reported first when several would fail, is left to that parameter.
- `Runners.AssignToVariables` and `Runners.RunMap` take the caller's map as the list of its bindings in `entrySet()` order; their contracts hold for every list.
- `RunnerBuilders.AttachAllFloats`: the success case is stated only for arrays of at most 2^29 - 1 floats. For longer arrays the `int` capacity `length * 4` wraps, and the outcome is given by `Buffers.StageFloats`.
- `ModelRunnerBuilder.attachExternalBuffer(name, float[])` documents an IAE for an empty array, but the code only stores an empty buffer. The IAE comes later, from `build()` (`RunnerBuilders.Build`).

## Findings

| source | as written | input that shows it | evidently intended | confidence | as-written member | corrected member |
|---|---|---|---|---|---|---|
| src/main/java/jp/preferred/menoh/MenohException.java:48-57 | the `MenohException` thrown for a known code inside the `try` is caught by the `catch (MenohException e)` meant for `valueOf`, and rethrown as UNDEFINED with the raw message | `checkError(1)` (STD_ERROR) | a known code yields that code with "<name>: <message>"; only an unknown code becomes UNDEFINED | high (not executed) | Errors.CheckErrorAsWritten | Errors.CheckError |
| menoh/src/main/java/jp/preferred/menoh/BufferUtils.java:76 | `mem.share(0, length)` exposes `length` bytes of a `length * 4`-byte copy | `copyToNativeMemory(new float[] {f}, 0, 1)` exposes 1 byte of 4; `BufferUtilsTest` reads `length * 4` bytes back | `mem.share(0, (long) length * 4)` exposing the whole copy | medium (not executed) | Buffers.CopyFloatsAsWritten | Buffers.CopyFloats |

=== FILE: buffers.dfy ===
/**
 * Buffer bridging (menoh/.../BufferUtils.java): how a caller's `ByteBuffer`
 * or `float[]` becomes memory the native engine can read, zero-copy or by
 * copying into a fresh native allocation. Floats are opaque 4-byte payloads.
 */
module Buffers {
  import opened Wrappers
  import opened JavaInt
  import opened Errors

  type byte = bv8

  /** One `float`, as the four bytes it occupies in native byte order. */
  type F32 = s: seq<byte> | |s| == 4 witness [0, 0, 0, 0]

  /** The bytes of consecutive floats. */
  function Flatten(values: seq<F32>): (r: seq<byte>)
    ensures |r| == 4 * |values|
    ensures forall i, k :: 0 <= i < |values| && 0 <= k < 4 ==> r[4 * i + k] == values[i][k]
  {
    if values == [] then []
    else
      var rest := Flatten(values[1..]);
      FlattenStep(values, rest);
      values[0] + rest
  }

  /** The first float's bytes followed by the bytes of the others lay every float out in turn. */
  lemma FlattenStep(values: seq<F32>, rest: seq<byte>)
    requires |values| > 0 && |rest| == 4 * (|values| - 1)
    requires forall i, k :: 0 <= i < |values| - 1 && 0 <= k < 4 ==> rest[4 * i + k] == values[1..][i][k]
    ensures forall i, k :: 0 <= i < |values| && 0 <= k < 4 ==> (values[0] + rest)[4 * i + k] == values[i][k]
  {
    forall i, k | 0 <= i < |values| && 0 <= k < 4
      ensures (values[0] + rest)[4 * i + k] == values[i][k]
    {
      if i > 0 {
        assert 4 * i + k == 4 + (4 * (i - 1) + k);
        assert values[1..][i - 1] == values[i];
      }
    }
  }

  /**
   * The state of a `java.nio.ByteBuffer`: `storage` is the memory behind it
   * (the heap array for a heap buffer, the native block for a direct one),
   * `base` is where element 0 of this buffer sits in `storage` (the
   * `arrayOffset()` of a heap buffer), and position <= limit <= capacity.
   */
  datatype RawByteBuffer = RawByteBuffer(
    storage: seq<byte>, base: nat, capacity: nat, position: nat, limit: nat, direct: bool, readOnly: bool)
  {
    predicate Valid() {
      position <= limit <= capacity && base + capacity <= |storage|
    }
  }

  type ByteBuffer = b: RawByteBuffer | b.Valid() witness RawByteBuffer([], 0, 0, 0, 0, false, false)

  /** `remaining()`. */
  function Remaining(b: ByteBuffer): nat {
    b.limit - b.position
  }

  /** `hasArray()`: an accessible backing array, which only a writable heap buffer has. */
  predicate HasArray(b: ByteBuffer) {
    !b.direct && !b.readOnly
  }

  /** The readable region `[position, limit)` of the buffer. */
  function Readable(b: ByteBuffer): (r: seq<byte>)
    ensures |r| == Remaining(b)
  {
    b.storage[b.base + b.position .. b.base + b.limit]
  }

  /** `duplicate()`: a new buffer object over the same storage with independent cursors. */
  function Duplicate(b: ByteBuffer): (r: ByteBuffer)
    ensures Readable(r) == Readable(b) && r.position == b.position
  {
    b
  }

  /** The relative bulk `get(byte[] dst)` for `dst.length == n`: reads `n` bytes and advances the position. */
  function Get(b: ByteBuffer, n: nat): (r: (ByteBuffer, seq<byte>))
    requires n <= Remaining(b)
    ensures |r.1| == n && r.1 == Readable(b)[..n]
    ensures r.0.position == b.position + n && r.0.limit == b.limit
  {
    var start := b.base + b.position;
    (b.(position := b.position + n), b.storage[start .. start + n])
  }

  /**
   * A JNA pointer the binding hands to the engine: either a window into a
   * caller's direct buffer (zero copy; the caller keeps ownership), or a fresh
   * native allocation holding a copy. `size` is what the pointer's `size()`
   * reports; JNA checks an access through a `share()` window against the
   * parent allocation, not against the window's own size.
   */
  datatype NativeBuffer =
    | Shared(source: ByteBuffer, start: nat, size: nat)
    | Allocated(bytes: seq<byte>, size: nat)

  /** A shared window lies inside its source's storage; an allocation's window lies inside the allocation. */
  predicate WellFormed(p: NativeBuffer) {
    match p
    case Shared(source, start, size) => start + size <= |source.storage|
    case Allocated(bytes, size) => size <= |bytes|
  }

  /** The bytes visible through the pointer's window. */
  function Visible(p: NativeBuffer): seq<byte>
    requires WellFormed(p)
  {
    match p
    case Shared(source, start, size) => source.storage[start .. start + size]
    case Allocated(bytes, size) => bytes[..size]
  }

  /**
   * `copyToNativeMemory(ByteBuffer)`: rejects a null or empty buffer; shares a
   * direct buffer from its position without copying; copies any other buffer
   * into a fresh allocation, from the backing array at `arrayOffset() +
   * position()` when there is one, through a duplicate otherwise.
   */
  function CopyBuffer(buffer: Option<ByteBuffer>): (r: Result<NativeBuffer, Exception>)
    ensures r.Failure? <==> buffer.None? || Remaining(buffer.value) == 0
    ensures r.Failure? ==> r.error == IllegalArgument("buffer must not be null or empty")
    ensures r.Success? ==> WellFormed(r.value) && Visible(r.value) == Readable(buffer.value)
    ensures r.Success? ==> (r.value.Shared? <==> buffer.value.direct)
    ensures r.Success? && r.value.Shared? ==>
      r.value.source == buffer.value && r.value.start == buffer.value.base + buffer.value.position
  {
    if buffer.None? || Remaining(buffer.value) <= 0 then
      Failure(IllegalArgument("buffer must not be null or empty"))
    else
      var b := buffer.value;
      var length := Remaining(b);
      if b.direct then
        Success(Shared(b, b.base + b.position, length))
      else if HasArray(b) then
        var index := b.base + b.position;
        Success(Allocated(b.storage[index .. index + length], length))
      else
        var (_, bytes) := Get(Duplicate(b), length);
        Success(Allocated(bytes, length))
  }

  /** The guard of the array copies (`float[]` here, `int[]` for the dims): a null or empty array is refused. */
  const EmptyValues: Exception := IllegalArgument("values must not be null or empty")

  /** JNA's `Memory(size)` refuses a non-positive size. */
  const AllocationSizeMessage: string := "Allocation size must be greater than zero"

  /**
   * `copyToNativeMemory(float[], offset, length)` as written: after the null /
   * empty guard it allocates `4 * length` bytes, copies the floats, and
   * returns `mem.share(0, length)`, a window of `length` bytes.
   */
  function CopyFloatsAsWritten(values: Option<seq<F32>>, offset: int32, length: int32): (r: Result<NativeBuffer, Exception>)
    ensures r.Success? ==> r.value.Allocated? && r.value.size == length && |r.value.bytes| == 4 * length
  {
    match CopyFloatsRegion(values, offset, length)
    case Failure(e) => Failure(e)
    case Success(bytes) => Success(Allocated(bytes, length as nat))
  }

  /** The allocation and copy shared by both versions of the float overload. */
  function CopyFloatsRegion(values: Option<seq<F32>>, offset: int32, length: int32): (r: Result<seq<byte>, Exception>)
    ensures r.Success? <==>
      values.Some? && |values.value| > 0 && length > 0 && offset >= 0 && offset + length <= |values.value|
    ensures r.Success? ==> r.value == Flatten(values.value[offset .. offset + length])
    ensures values.None? || |values.value| == 0 ==> r == Failure(EmptyValues)
  {
    if values.None? || |values.value| <= 0 then
      Failure(EmptyValues)
    else if length <= 0 then
      Failure(IllegalArgument(AllocationSizeMessage))
    else if offset < 0 || offset + length > |values.value| then
      Failure(Library(IndexOutOfBounds))
    else
      Success(Flatten(values.value[offset .. offset + length]))
  }

  /** `copyToNativeMemory(float[], offset, length)` corrected to share the whole `4 * length`-byte allocation. */
  function CopyFloats(values: Option<seq<F32>>, offset: int32, length: int32): (r: Result<NativeBuffer, Exception>)
    ensures r.Failure? <==>
      values.None? || |values.value| == 0 || length <= 0 || offset < 0 || offset + length > |values.value|
    ensures values.None? || |values.value| == 0 ==> r == Failure(EmptyValues)
    ensures r.Success? ==> r.value.Allocated? && WellFormed(r.value) && |Visible(r.value)| == 4 * length
    ensures r.Success? ==> Visible(r.value) == Flatten(values.value[offset .. offset + length])
  {
    match CopyFloatsRegion(values, offset, length)
    case Failure(e) => Failure(e)
    case Success(bytes) => Success(Allocated(bytes, |bytes|))
  }

  /** With one float copied, the as-written window admits 1 of the 4 bytes written, while the corrected one admits all 4. */
  lemma CopyFloatsWindowTooSmall(f: F32)
    ensures CopyFloatsAsWritten(Some([f]), 0, 1) == Success(Allocated(f, 1))
    ensures |Visible(CopyFloatsAsWritten(Some([f]), 0, 1).value)| == 1
    ensures Visible(CopyFloats(Some([f]), 0, 1).value) == f
  {
    assert Flatten([f][0 .. 1]) == f;
  }

  /**
   * `ByteBuffer.allocateDirect(length * 4)` followed by
   * `asFloatBuffer().put(values, offset, length)`: stages floats in a fresh
   * direct buffer. The capacity is computed in `int` arithmetic, so a length
   * of 2^29 or more wraps and fails; the put checks the array region first,
   * then the room in the buffer. A null array is only dereferenced by the put,
   * after the allocation.
   */
  function StageFloats(values: Option<seq<F32>>, offset: int32, length: int32): (r: Result<ByteBuffer, Exception>)
    ensures r.Success? <==>
      values.Some? && 0 <= offset && 0 <= length && offset + length <= |values.value| && 4 * length <= INT_MAX
    ensures values.None? && 0 <= 4 * length <= INT_MAX ==> r == Failure(Library(NullPointer))
    ensures r.Success? ==>
      r.value.direct && r.value.position == 0 && r.value.limit == r.value.capacity == 4 * length &&
      Readable(r.value) == Flatten(values.value[offset .. offset + length])
  {
    var capacity := WrapInt(length * 4);
    if capacity < 0 then
      Failure(Library(NegativeCapacity))
    else if values.None? then
      Failure(Library(NullPointer))
    else if offset < 0 || length < 0 || offset + length > |values.value| then
      Failure(Library(IndexOutOfBounds))
    else if length > capacity / 4 then
      Failure(Library(BufferOverflow))
    else
      var bytes := Flatten(values.value[offset .. offset + length]);
      Success(RawByteBuffer(bytes, 0, capacity, 0, capacity, true, false))
  }
}

=== FILE: dtype.dfy ===
/** The element data type of a tensor (menoh/.../DType.java). */
module DTypes {
  import opened Wrappers
  import opened JavaInt
  import opened Errors

  /** The constants of `DType`, in declaration order. */
  datatype DType = FLOAT

  /** The cached `values()` array: the constants by ordinal. */
  const Values: seq<DType> := [FLOAT]

  /** The engine's id of the data type. */
  function Id(d: DType): int32 {
    match d
    case FLOAT => 0
  }

  /** `size()`: the byte size of one element. Every constant has a case, so the UNDEFINED default is unreachable. */
  function Size(d: DType): (r: int32)
    ensures r > 0
    ensures d == FLOAT ==> r == 4
  {
    match d
    case FLOAT => 4
  }

  /** `valueOf(int)`: the constant whose ordinal is `value`, or an UNDEFINED failure naming the value. */
  function ValueOf(value: int32): (r: Result<DType, Exception>)
    ensures r.Success? <==> 0 <= value < |Values|
    ensures r.Success? ==> Id(r.value) == value
    ensures r.Failure? ==> r.error == MenohException(UNDEFINED, "undefined dtype: " + Decimal(value), None)
  {
    if 0 <= value < |Values| then Success(Values[value])
    else Failure(MenohException(UNDEFINED, "undefined dtype: " + Decimal(value), None))
  }

  /** Round trip: `valueOf(d.getId()) == d` for every data type, and FLOAT is id 0. */
  lemma ValueOfGetId(d: DType)
    ensures ValueOf(Id(d)) == Success(d)
    ensures ValueOf(0) == Success(FLOAT)
  {
  }

  /** The exception `DType.valueOf(7)` throws. */
  lemma UnknownDTypeSeven()
    ensures ValueOf(7) == Failure(MenohException(UNDEFINED, "undefined dtype: 7", None))
  {
    assert Decimal(7) == "7";
    assert "undefined dtype: " + Decimal(7) == "undefined dtype: 7";
  }

  /** The extreme ids fail with UNDEFINED. */
  lemma ValueOfExtremes()
    ensures ValueOf(INT_MIN).Failure? && ValueOf(INT_MIN).error.code == UNDEFINED
    ensures ValueOf(INT_MAX).Failure? && ValueOf(INT_MAX).error.code == UNDEFINED
  {
  }
}

=== FILE: errors.dfy ===
/**
 * Menoh's error codes (menoh/.../ErrorCode.java), the exceptions the binding
 * raises, and MenohException.checkError (src/.../MenohException.java), which
 * turns a native status code into an exception.
 */
module Errors {
  import opened Wrappers
  import opened JavaInt

  /** The constants of `ErrorCode`, in declaration order. */
  datatype ErrorCode =
    | UNDEFINED
    | SUCCESS
    | STD_ERROR
    | UNKNOWN_ERROR
    | INVALID_FILENAME
    | ONNX_PARSE_ERROR
    | INVALID_DTYPE
    | INVALID_ATTRIBUTE_TYPE
    | UNSUPPORTED_OPERATOR_ATTRIBUTE
    | DIMENSION_MISMATCH
    | VARIABLE_NOT_FOUND
    | INDEX_OUT_OF_RANGE
    | JSON_PARSE_ERROR
    | INVALID_BACKEND_NAME
    | UNSUPPORTED_OPERATOR
    | FAILED_TO_CONFIGURE_OPERATOR
    | ERROR_CODE
    | SAME_NAMED_VARIABLE_ALREADY_EXIST

  /** The engine's integer for each constant; UNDEFINED has `Integer.MIN_VALUE`, which the engine never returns. */
  function Id(c: ErrorCode): int32 {
    match c
    case UNDEFINED => INT_MIN
    case SUCCESS => 0
    case STD_ERROR => 1
    case UNKNOWN_ERROR => 2
    case INVALID_FILENAME => 3
    case ONNX_PARSE_ERROR => 4
    case INVALID_DTYPE => 5
    case INVALID_ATTRIBUTE_TYPE => 6
    case UNSUPPORTED_OPERATOR_ATTRIBUTE => 7
    case DIMENSION_MISMATCH => 8
    case VARIABLE_NOT_FOUND => 9
    case INDEX_OUT_OF_RANGE => 10
    case JSON_PARSE_ERROR => 11
    case INVALID_BACKEND_NAME => 12
    case UNSUPPORTED_OPERATOR => 13
    case FAILED_TO_CONFIGURE_OPERATOR => 14
    case ERROR_CODE => 15
    case SAME_NAMED_VARIABLE_ALREADY_EXIST => 16
  }

  /** The Java constant name, which `toString()` returns. */
  function Name(c: ErrorCode): string {
    match c
    case UNDEFINED => "UNDEFINED"
    case SUCCESS => "SUCCESS"
    case STD_ERROR => "STD_ERROR"
    case UNKNOWN_ERROR => "UNKNOWN_ERROR"
    case INVALID_FILENAME => "INVALID_FILENAME"
    case ONNX_PARSE_ERROR => "ONNX_PARSE_ERROR"
    case INVALID_DTYPE => "INVALID_DTYPE"
    case INVALID_ATTRIBUTE_TYPE => "INVALID_ATTRIBUTE_TYPE"
    case UNSUPPORTED_OPERATOR_ATTRIBUTE => "UNSUPPORTED_OPERATOR_ATTRIBUTE"
    case DIMENSION_MISMATCH => "DIMENSION_MISMATCH"
    case VARIABLE_NOT_FOUND => "VARIABLE_NOT_FOUND"
    case INDEX_OUT_OF_RANGE => "INDEX_OUT_OF_RANGE"
    case JSON_PARSE_ERROR => "JSON_PARSE_ERROR"
    case INVALID_BACKEND_NAME => "INVALID_BACKEND_NAME"
    case UNSUPPORTED_OPERATOR => "UNSUPPORTED_OPERATOR"
    case FAILED_TO_CONFIGURE_OPERATOR => "FAILED_TO_CONFIGURE_OPERATOR"
    case ERROR_CODE => "ERROR_CODE"
    case SAME_NAMED_VARIABLE_ALREADY_EXIST => "SAME_NAMED_VARIABLE_ALREADY_EXIST"
  }

  /** The cached `values()` array: the constants by ordinal. */
  const Values: seq<ErrorCode> := [
    UNDEFINED, SUCCESS, STD_ERROR, UNKNOWN_ERROR, INVALID_FILENAME, ONNX_PARSE_ERROR,
    INVALID_DTYPE, INVALID_ATTRIBUTE_TYPE, UNSUPPORTED_OPERATOR_ATTRIBUTE, DIMENSION_MISMATCH,
    VARIABLE_NOT_FOUND, INDEX_OUT_OF_RANGE, JSON_PARSE_ERROR, INVALID_BACKEND_NAME,
    UNSUPPORTED_OPERATOR, FAILED_TO_CONFIGURE_OPERATOR, ERROR_CODE, SAME_NAMED_VARIABLE_ALREADY_EXIST
  ]

  /** Exceptions raised by JDK or JNA library code the binding calls; their messages are the library's. */
  datatype LibraryError =
    | NullPointer        // a method called on a null reference
    | NegativeArraySize  // `new int[n]` with n < 0
    | NegativeCapacity   // `ByteBuffer.allocateDirect` with a negative capacity
    | IndexOutOfBounds   // an array region outside the array
    | BufferOverflow     // a relative bulk put larger than the remaining space
    | NativeFault        // an access outside the native memory a pointer addresses

  /** Every exception the modelled code can raise. */
  datatype Exception =
    | MenohException(code: ErrorCode, message: string, cause: Option<Exception>)
    | MenohRunnerException(message: string)
    | IllegalArgument(message: string)
    | Library(kind: LibraryError)

  /** `ErrorCode.valueOf(int)`: the constant with the given id. The index `value + 1` is computed in `int` arithmetic. */
  function ValueOf(value: int32): (r: Result<ErrorCode, Exception>)
    ensures r.Success? <==> 0 <= value <= 16
    ensures r.Success? ==> Id(r.value) == value && r.value != UNDEFINED
    ensures r.Failure? ==>
      r.error == MenohException(UNDEFINED, "The error code is undefined: " + Decimal(value), None)
  {
    var index := WrapInt(value + 1);
    if 1 <= index < |Values| then
      Success(Values[index])
    else
      Failure(MenohException(UNDEFINED, "The error code is undefined: " + Decimal(value), None))
  }

  /** The declaration order puts UNDEFINED first and the constant with id `i - 1` at ordinal `i`. */
  lemma ValuesTable()
    ensures |Values| == 18 && Values[0] == UNDEFINED
    ensures forall i :: 1 <= i < 18 ==> Id(Values[i]) == i - 1
  {
  }

  /** `valueOf` inverts `getId` on every constant except UNDEFINED. */
  lemma ValueOfGetId(c: ErrorCode)
    ensures c != UNDEFINED ==> ValueOf(Id(c)) == Success(c)
    ensures c == UNDEFINED ==> ValueOf(Id(c)).Failure?
  {
  }

  /** `valueOf(Integer.MAX_VALUE)` fails because `value + 1` wraps to `Integer.MIN_VALUE`. */
  lemma ValueOfIntMax()
    ensures WrapInt(INT_MAX + 1) == INT_MIN
    ensures ValueOf(INT_MAX).Failure? && ValueOf(INT_MAX).error.code == UNDEFINED
  {
    assert INT_MAX + 1 - INT_MIN == INT_MODULUS;
    assert !(0 <= INT_MAX <= 16);
  }

  /** ASCII lower-casing, as `toLowerCase(Locale.ENGLISH)` acts on the constant names. */
  function Lower(s: string): (r: string)
    ensures |r| == |s|
    ensures forall i :: 0 <= i < |s| ==> ('A' <= s[i] <= 'Z' ==> r[i] == (s[i] as int + 32) as char)
    ensures forall i :: 0 <= i < |s| ==> (!('A' <= s[i] <= 'Z') ==> r[i] == s[i])
  {
    if s == [] then []
    else [if 'A' <= s[0] <= 'Z' then (s[0] as int + 32) as char else s[0]] + Lower(s[1..])
  }

  /** The message of the exception `checkError` intends for a known code. */
  function CodeMessage(c: ErrorCode, engineMessage: string): string {
    Lower(Name(c)) + ": " + engineMessage
  }

  /**
   * `checkError(errorCode)` as written: the exception thrown for a known code
   * is thrown inside the `try` and caught by its own `catch (MenohException)`,
   * so it ends up as the cause of an UNDEFINED exception carrying the raw
   * engine message.
   */
  function CheckErrorAsWritten(status: int32, engineMessage: string): (r: Outcome<Exception>)
    ensures r.Pass? <==> status == 0
    ensures r.Fail? ==> r.error.MenohException? && r.error.code == UNDEFINED && r.error.message == engineMessage
    ensures r.Fail? ==> r.error.cause.Some? && r.error.cause.value.MenohException?
    ensures r.Fail? && 0 < status <= 16 ==>
      r.error.cause.value.message == CodeMessage(r.error.cause.value.code, engineMessage) &&
      Id(r.error.cause.value.code) == status
  {
    if status == Id(SUCCESS) then Pass
    else
      var thrown := match ValueOf(status)
        case Success(ec) => MenohException(ec, CodeMessage(ec, engineMessage), None)
        case Failure(e) => e;
      Fail(MenohException(UNDEFINED, engineMessage, Some(thrown)))
  }

  /**
   * `checkError(errorCode)` as evidently intended: a known non-zero code is
   * reported with that code and "<lower-case name>: <engine message>"; an
   * unmapped code is reported as UNDEFINED with the raw engine message and
   * the failure of `ErrorCode.valueOf` as its cause.
   */
  function CheckError(status: int32, engineMessage: string): (r: Outcome<Exception>)
    ensures r.Pass? <==> status == 0
    ensures r.Fail? ==> r.error.MenohException?
    ensures r.Fail? && 0 < status <= 16 ==>
      Id(r.error.code) == status && r.error.message == CodeMessage(r.error.code, engineMessage) && r.error.cause == None
    ensures r.Fail? && !(0 <= status <= 16) ==>
      r.error.code == UNDEFINED && r.error.message == engineMessage && r.error.cause == Some(ValueOf(status).error)
  {
    if status == Id(SUCCESS) then Pass
    else
      match ValueOf(status)
      case Success(ec) => Fail(MenohException(ec, CodeMessage(ec, engineMessage), None))
      case Failure(e) => Fail(MenohException(UNDEFINED, engineMessage, Some(e)))
  }

  /** The as-written `checkError` loses the code: status 1 (STD_ERROR) is reported as UNDEFINED, unlike the corrected one. */
  lemma CheckErrorLosesCode(engineMessage: string)
    ensures CheckErrorAsWritten(1, engineMessage).error.code == UNDEFINED
    ensures CheckError(1, engineMessage).error.code == STD_ERROR
    ensures CheckError(1, engineMessage).error.message == "std_error: " + engineMessage
  {
  }

  /** The exception for VARIABLE_NOT_FOUND (9), which building a schema may report. */
  lemma CheckErrorVariableNotFound(engineMessage: string)
    ensures CheckError(9, engineMessage) ==
      Fail(MenohException(VARIABLE_NOT_FOUND, "variable_not_found" + ": " + engineMessage, None))
  {
    assert ValueOf(9) == Success(VARIABLE_NOT_FOUND) by { assert WrapInt(10) == 10; }
    assert CodeMessage(VARIABLE_NOT_FOUND, engineMessage) == "variable_not_found" + ": " + engineMessage by {
      LowerName(VARIABLE_NOT_FOUND, "variable_not_found");
    }
  }

  /** The exception for INVALID_BACKEND_NAME (12), which building a model may report. */
  lemma CheckErrorInvalidBackendName(engineMessage: string)
    ensures CheckError(12, engineMessage) ==
      Fail(MenohException(INVALID_BACKEND_NAME, "invalid_backend_name" + ": " + engineMessage, None))
  {
    assert ValueOf(12) == Success(INVALID_BACKEND_NAME) by { assert WrapInt(13) == 13; }
    assert CodeMessage(INVALID_BACKEND_NAME, engineMessage) == "invalid_backend_name" + ": " + engineMessage by {
      LowerName(INVALID_BACKEND_NAME, "invalid_backend_name");
    }
  }

  /** A constant name lower-cases to `lower` when it agrees with it character by character. */
  lemma LowerName(c: ErrorCode, lower: string)
    requires |lower| == |Name(c)|
    requires forall i :: 0 <= i < |lower| ==>
      lower[i] == (if 'A' <= Name(c)[i] <= 'Z' then (Name(c)[i] as int + 32) as char else Name(c)[i])
    ensures Lower(Name(c)) == lower
  {
  }

  /** For every known non-zero code, the as-written exception's cause is exactly the corrected exception. */
  lemma CheckErrorAsWrittenWrapsCorrected(status: int32, engineMessage: string)
    requires status != 0
    ensures CheckErrorAsWritten(status, engineMessage).error.cause == Some(
      if 0 < status <= 16 then CheckError(status, engineMessage).error else ValueOf(status).error)
  {
  }
}

=== FILE: handles.dfy ===
/**
 * The `AutoCloseable` wrappers around engine objects. Each holds the handle
 * it owns, `Null` once closed; the builder and the compiled model also hold
 * the attached buffers they keep alive.
 */
module Handles {
  import opened Wrappers
  import opened Buffers
  import opened Native

  /** `ModelData`: a loaded ONNX model. */
  datatype ModelData = ModelData(handle: Ptr)

  /** `VariableProfileTableBuilder`: collects input profiles and output names. */
  datatype VariableProfileTableBuilder = VariableProfileTableBuilder(handle: Ptr)

  /** `VariableProfileTable`: the resolved schema. */
  datatype VariableProfileTable = VariableProfileTable(handle: Ptr)

  /** `ModelBuilder`: a build session with the list of buffers attached so far. */
  datatype ModelBuilder = ModelBuilder(handle: Ptr, externalBuffers: seq<NativeBuffer>)

  /** `Model`: a compiled model with its own copy of the attached buffer list. */
  datatype Model = Model(handle: Ptr, externalBuffers: seq<NativeBuffer>)

  /** One binding of the runner builder's name-to-buffer map; a null buffer is allowed. */
  datatype Entry = Entry(name: string, buffer: Option<ByteBuffer>)

  /**
   * `ModelRunnerBuilder`: owns a loaded model and a schema builder, the
   * backend choice, and the buffers to attach. The `HashMap` is an
   * association list in first-insertion order; that is not the order in
   * which `entrySet()` visits it: `RunnerBuilders.Build` takes that order as a parameter.
   */
  datatype ModelRunnerBuilder = ModelRunnerBuilder(
    modelData: ModelData,
    vptBuilder: VariableProfileTableBuilder,
    backendName: string,
    backendConfig: string,
    externalBuffers: seq<Entry>)

  /** `ModelRunner`: owns one compiled model. */
  datatype ModelRunner = ModelRunner(model: Model)
}

=== FILE: java_int.dfy ===
/**
 * Java's fixed-width integers. Dafny integers are unbounded, so the two's
 * complement wrap-around of `int` and `long` arithmetic is written out here.
 */
module JavaInt {

  const INT_MIN: int := -0x8000_0000
  const INT_MAX: int := 0x7FFF_FFFF
  const LONG_MIN: int := -0x8000_0000_0000_0000
  const LONG_MAX: int := 0x7FFF_FFFF_FFFF_FFFF

  const INT_MODULUS: int := 0x1_0000_0000
  const LONG_MODULUS: int := 0x1_0000_0000_0000_0000

  /** A Java `int`. */
  type int32 = x: int | -0x8000_0000 <= x <= 0x7FFF_FFFF

  /** A Java `long`. */
  type int64 = x: int | -0x8000_0000_0000_0000 <= x <= 0x7FFF_FFFF_FFFF_FFFF

  /** The result of an `int` operation whose exact value is `x`: the unique `int` congruent to `x` modulo 2^32. */
  function WrapInt(x: int): (r: int32)
    ensures (r - x) % INT_MODULUS == 0
    ensures INT_MIN <= x <= INT_MAX ==> r == x
  {
    var q := (x - INT_MIN) / INT_MODULUS;
    assert x - INT_MIN == q * INT_MODULUS + (x - INT_MIN) % INT_MODULUS;
    (x - INT_MIN) % INT_MODULUS + INT_MIN
  }

  /** The result of a `long` operation whose exact value is `x`: the unique `long` congruent to `x` modulo 2^64. */
  function WrapLong(x: int): (r: int64)
    ensures (r - x) % LONG_MODULUS == 0
    ensures LONG_MIN <= x <= LONG_MAX ==> r == x
  {
    var q := (x - LONG_MIN) / LONG_MODULUS;
    assert x - LONG_MIN == q * LONG_MODULUS + (x - LONG_MIN) % LONG_MODULUS;
    (x - LONG_MIN) % LONG_MODULUS + LONG_MIN
  }

  /** Two values in the `long` range that are congruent modulo 2^64 are equal. */
  lemma LongCongruentEqual(a: int64, b: int64)
    requires (a - b) % LONG_MODULUS == 0
    ensures a == b
  {
    var q := (a - b) / LONG_MODULUS;
    assert a - b == q * LONG_MODULUS;
  }

  /** Wrapping an intermediate factor does not change a wrapped product: `long` multiplication is a ring homomorphism. */
  lemma {:induction false} WrapLongMul(a: int, b: int)
    ensures WrapLong(WrapLong(a) * b) == WrapLong(a * b)
  {
    var w := WrapLong(a);
    var k := (w - a) / LONG_MODULUS;
    assert w - a == k * LONG_MODULUS;
    var t := k * b;
    assert w * b == a * b + t * LONG_MODULUS by {
      calc {
        w * b;
        (a + k * LONG_MODULUS) * b;
        a * b + (k * b) * LONG_MODULUS;
      }
    }
    var x := WrapLong(w * b);
    var y := WrapLong(a * b);
    var kx := (x - w * b) / LONG_MODULUS;
    var ky := (y - a * b) / LONG_MODULUS;
    assert x - w * b == kx * LONG_MODULUS;
    assert y - a * b == ky * LONG_MODULUS;
    assert x - y == (kx + t - ky) * LONG_MODULUS;
    assert (x - y) % LONG_MODULUS == 0;
    LongCongruentEqual(x, y);
  }

  /** The decimal rendering of `x`, as Java's string concatenation and `%d` produce it. */
  function Decimal(x: int): (r: string)
    ensures |r| > 0
    ensures (r[0] == '-') <==> x < 0
    ensures forall i :: (if x < 0 then 1 else 0) <= i < |r| ==> '0' <= r[i] <= '9'
  {
    if x < 0 then "-" + Digits(-x) else Digits(x)
  }

  /** The decimal digits of a natural number, most significant first, with no leading zero. */
  function Digits(n: nat): (r: string)
    ensures |r| > 0
    ensures forall i :: 0 <= i < |r| ==> '0' <= r[i] <= '9'
    ensures |r| > 1 ==> r[0] != '0'
    decreases n
  {
    var d := [('0' as int + n % 10) as char];
    if n < 10 then d else Digits(n / 10) + d
  }
}

=== FILE: legacy.dfy ===
/**
 * The first-generation binding's schema builder
 * (src/.../VariableProfileTableBuilder.java). Creation, closing and
 * building are as in `Profiles`; the two adders differ: inputs are limited
 * to rank 2 or 4, each with its own native entry point, and output
 * profiles forward their dtype.
 */
module LegacyProfiles {
  import opened Wrappers
  import opened JavaInt
  import opened Errors
  import opened DTypes
  import opened Native
  import opened Handles

  /** The message for a rank other than 2 or 4. */
  function InvalidRank(name: string, rank: nat): string {
    name + " has an invalid dims size: " + Decimal(rank) + " (it must be 2 or 4)"
  }

  /**
   * `addInputProfile(name, dtype, dims)`: rank 2 goes to the `dims_2` entry
   * point, rank 4 to `dims_4`; any other rank throws UNDEFINED without an
   * engine call. A null array throws before that.
   */
  function AddInputProfile(b: VariableProfileTableBuilder, name: string, dtype: DType, dims: Option<seq<int32>>, e: Engine, o: Oracle): (r: (Engine, Outcome<Exception>))
    requires dims.Some? ==> |dims.value| <= INT_MAX
    ensures r.0.live == e.live && r.0.next == e.next && r.0.memory == e.memory && r.0.scratch == e.scratch
    ensures dims.None? ==> r == (e, Fail(Library(NullPointer)))
    ensures dims.Some? && |dims.value| != 2 && |dims.value| != 4 ==>
      r == (e, Fail(MenohException(UNDEFINED, InvalidRank(name, |dims.value|), None)))
    ensures r.1.Pass? ==> dims.Some? && (|dims.value| == 2 || |dims.value| == 4)
    ensures dims.Some? && |dims.value| == 2 ==>
      var d := dims.value;
      var c := AddInputProfileDims2(b.handle, name, DTypes.Id(dtype), d[0], d[1]);
      |r.0.log| > |e.log| && r.0.log[..|e.log| + 1] == e.log + [Invoked(c)] && r.1 == CheckError(o(e.step, c).status, o(e.step, c).message)
    ensures dims.Some? && |dims.value| == 4 ==>
      var d := dims.value;
      var c := AddInputProfileDims4(b.handle, name, DTypes.Id(dtype), d[0], d[1], d[2], d[3]);
      |r.0.log| > |e.log| && r.0.log[..|e.log| + 1] == e.log + [Invoked(c)] && r.1 == CheckError(o(e.step, c).status, o(e.step, c).message)
  {
    match dims
    case None => (e, Fail(Library(NullPointer)))
    case Some(d) =>
      if |d| == 2 then
        Perform(e, o, AddInputProfileDims2(b.handle, name, DTypes.Id(dtype), d[0], d[1]))
      else if |d| == 4 then
        Perform(e, o, AddInputProfileDims4(b.handle, name, DTypes.Id(dtype), d[0], d[1], d[2], d[3]))
      else
        (e, Fail(MenohException(UNDEFINED, InvalidRank(name, |d|), None)))
  }

  /** A rank-3 input is refused with the rank in the message, and no engine call is made. */
  lemma RankThreeRefused(b: VariableProfileTableBuilder, d: seq<int32>, e: Engine, o: Oracle)
    requires |d| == 3
    ensures AddInputProfile(b, "x", DType.FLOAT, Some(d), e, o) ==
      (e, Fail(MenohException(UNDEFINED, "x has an invalid dims size: 3 (it must be 2 or 4)", None)))
  {
    InvalidRankThree();
  }

  /** The message for a rank-3 input named "x". */
  lemma InvalidRankThree()
    ensures InvalidRank("x", 3) == "x has an invalid dims size: 3 (it must be 2 or 4)"
  {
    assert Decimal(3) == "3";
    InvalidRankThreeHead();
    assert "x has an invalid dims size: 3" + " (it must be 2 or 4)" == "x has an invalid dims size: 3 (it must be 2 or 4)";
  }

  /** The message up to the rank. */
  lemma InvalidRankThreeHead()
    ensures "x" + " has an invalid dims size: " + "3" == "x has an invalid dims size: 3"
  {
    assert "x" + " has an invalid dims size: " == "x has an invalid dims size: ";
  }

  /** `addOutputProfile(name, dtype)`: one engine call carrying the dtype id. */
  function AddOutputProfile(b: VariableProfileTableBuilder, name: string, dtype: DType, e: Engine, o: Oracle): (r: (Engine, Outcome<Exception>))
    ensures r.0.live == e.live && r.0.next == e.next && r.0.memory == e.memory && r.0.scratch == e.scratch
    ensures r.1.Pass? <==> o(e.step, Call.AddOutputProfile(b.handle, name, DTypes.Id(dtype))).status == 0
    ensures r.1 == CheckError(o(e.step, Call.AddOutputProfile(b.handle, name, DTypes.Id(dtype))).status, o(e.step, Call.AddOutputProfile(b.handle, name, DTypes.Id(dtype))).message)
    ensures |r.0.log| > |e.log| && r.0.log[..|e.log| + 1] == e.log + [Invoked(Call.AddOutputProfile(b.handle, name, DTypes.Id(dtype)))]
  {
    Perform(e, o, Call.AddOutputProfile(b.handle, name, DTypes.Id(dtype)))
  }
}

=== FILE: model_data.dfy ===
/** `ModelData` (menoh/.../ModelData.java): loading, optimizing and releasing a model. */
module ModelDatas {
  import opened Wrappers
  import opened Errors
  import opened Native
  import opened Handles

  /** `close()`: deletes the engine object once and sets the handle to NULL; later calls do nothing. */
  function Close(md: ModelData, e: Engine): (r: (ModelData, Engine))
    ensures r.0.handle == Null
    ensures md.handle.Addr? ==>
      r.1 == e.(live := e.live - {md.handle.id}, log := e.log + [Invoked(DeleteModelData(md.handle))])
    ensures md.handle == Null ==> r.1 == e
    ensures Valid(e) ==> Valid(r.1)
  {
    (md.(handle := Null), Release(e, md.handle, DeleteModelData(md.handle)))
  }

  /** Closing twice: the second `close()` changes nothing and emits no native call. */
  lemma CloseIdempotent(md: ModelData, e: Engine)
    ensures Close(Close(md, e).0, Close(md, e).1) == Close(md, e)
  {
  }

  /** `optimize(vpt)`: one native call with both current handles; returns the same object or throws. */
  function Optimize(md: ModelData, vpt: VariableProfileTable, e: Engine, o: Oracle): (r: (Engine, Result<ModelData, Exception>))
    ensures r.0.live == e.live && r.0.next == e.next && r.0.memory == e.memory && r.0.scratch == e.scratch
    ensures r.0.step == e.step + 1
    ensures r.1.Success? <==> o(e.step, ModelDataOptimize(md.handle, vpt.handle)).status == 0
    ensures r.1.Success? ==> r.1.value == md && r.0.log == e.log + [Invoked(ModelDataOptimize(md.handle, vpt.handle))]
    ensures r.1.Failure? ==>
      r.1.error == CheckError(o(e.step, ModelDataOptimize(md.handle, vpt.handle)).status, o(e.step, ModelDataOptimize(md.handle, vpt.handle)).message).error &&
      r.0.log == e.log + [Invoked(ModelDataOptimize(md.handle, vpt.handle)), ReadLastError]
  {
    var (e1, outcome) := Perform(e, o, ModelDataOptimize(md.handle, vpt.handle));
    if outcome.Fail? then (e1, Failure(outcome.error)) else (e1, Success(md))
  }

  /** `fromOnnxFile(path)`: a `ModelData` holding the new engine handle, or an exception and no object. */
  function FromOnnxFile(path: string, e: Engine, o: Oracle): (r: (Engine, Result<ModelData, Exception>))
    requires Valid(e)
    ensures Valid(r.0) && r.0.step == e.step + 1
    ensures r.1.Success? <==> o(e.step, MakeModelDataFromOnnx(path)).status == 0
    ensures r.1.Success? ==> r.1.value.handle == Addr(e.next) && r.0.live == e.live + {e.next} && r.0.next == e.next + 1
    ensures r.1.Failure? ==>
      r.0.live == e.live && r.0.next == e.next &&
      r.1.error == CheckError(o(e.step, MakeModelDataFromOnnx(path)).status, o(e.step, MakeModelDataFromOnnx(path)).message).error
  {
    var (e1, handle) := Create(e, o, MakeModelDataFromOnnx(path));
    if handle.Failure? then (e1, Failure(handle.error)) else (e1, Success(ModelData(handle.value)))
  }
}

=== FILE: models.dfy ===
/**
 * The compile layer: `ModelBuilder` (menoh/.../ModelBuilder.java) and the
 * compiled `Model` (menoh/.../Model.java).
 */
module Models {
  import opened Wrappers
  import opened JavaInt
  import opened Errors
  import opened DTypes
  import opened Buffers
  import opened Native
  import opened Handles
  import opened Variables

  /** `Model.builder(vpt)`: a build session with a fresh engine handle and no attached buffers. */
  function NewBuilder(vpt: VariableProfileTable, e: Engine, o: Oracle): (r: (Engine, Result<ModelBuilder, Exception>))
    requires Valid(e)
    ensures Valid(r.0) && r.0.step == e.step + 1 && r.0.memory == e.memory && r.0.scratch == e.scratch
    ensures r.1.Success? <==> o(e.step, MakeModelBuilder(vpt.handle)).status == 0
    ensures r.1.Success? ==>
      r.1.value == ModelBuilder(Addr(e.next), []) && r.0.live == e.live + {e.next} && r.0.next == e.next + 1
    ensures r.1.Failure? ==> r.0.live == e.live && r.0.next == e.next
    ensures r.1.Failure? ==> r.1.error == CheckError(o(e.step, MakeModelBuilder(vpt.handle)).status, o(e.step, MakeModelBuilder(vpt.handle)).message).error
  {
    var (e1, handle) := Create(e, o, MakeModelBuilder(vpt.handle));
    if handle.Failure? then (e1, Failure(handle.error)) else (e1, Success(ModelBuilder(handle.value, [])))
  }

  /**
   * `ModelBuilder.close()`: on an open builder, deletes it, sets the handle
   * to NULL and clears the attached list; on a closed one, does nothing.
   */
  function CloseBuilder(mb: ModelBuilder, e: Engine): (r: (ModelBuilder, Engine))
    ensures r.0.handle == Null
    ensures mb.handle.Addr? ==>
      r.0.externalBuffers == [] &&
      r.1 == e.(live := e.live - {mb.handle.id}, log := e.log + [Invoked(DeleteModelBuilder(mb.handle))])
    ensures mb.handle == Null ==> r == (mb, e)
    ensures Valid(e) ==> Valid(r.1)
  {
    if mb.handle == Null then (mb, e)
    else (ModelBuilder(Null, []), Release(e, mb.handle, DeleteModelBuilder(mb.handle)))
  }

  /** Closing a builder twice: the second call changes nothing. */
  lemma CloseBuilderIdempotent(mb: ModelBuilder, e: Engine)
    ensures CloseBuilder(CloseBuilder(mb, e).0, CloseBuilder(mb, e).1) == CloseBuilder(mb, e)
  {
  }

  /** The message `attachExternalBuffer(name, ByteBuffer)` throws for a null or empty buffer. */
  const EmptyData: Exception := IllegalArgument("data must not be null or empty")

  /** `attachImpl`: the native attach of an already bridged buffer; returns the same builder. */
  function AttachImpl(mb: ModelBuilder, name: string, p: NativeBuffer, e: Engine, o: Oracle): (r: (Engine, Outcome<Exception>))
    ensures r.0.live == e.live && r.0.next == e.next && r.0.memory == e.memory && r.0.scratch == e.scratch
    ensures r.1 == CheckError(o(e.step, AttachExternalBuffer(mb.handle, name, p)).status, o(e.step, AttachExternalBuffer(mb.handle, name, p)).message)
    ensures r.1.Pass? <==> o(e.step, AttachExternalBuffer(mb.handle, name, p)).status == 0
    ensures r.1.Pass? ==> r.0.log == e.log + [Invoked(AttachExternalBuffer(mb.handle, name, p))]
  {
    Perform(e, o, AttachExternalBuffer(mb.handle, name, p))
  }

  /**
   * `attachExternalBuffer(name, ByteBuffer)`. A null or empty buffer throws
   * and changes nothing. Otherwise the buffer is bridged (shared when direct,
   * copied when not), appended to the builder's list, and then attached; a
   * failing attach throws but the list keeps the new entry.
   */
  function AttachBuffer(mb: ModelBuilder, name: string, buffer: Option<ByteBuffer>, e: Engine, o: Oracle): (r: (ModelBuilder, Engine, Outcome<Exception>))
    ensures buffer.None? || Remaining(buffer.value) == 0 ==> r == (mb, e, Fail(EmptyData))
    ensures buffer.Some? && Remaining(buffer.value) > 0 ==>
      var p := CopyBuffer(buffer).value;
      r.0 == mb.(externalBuffers := mb.externalBuffers + [p]) &&
      Visible(p) == Readable(buffer.value) && (p.Shared? <==> buffer.value.direct) &&
      (r.2.Pass? <==> o(e.step, AttachExternalBuffer(mb.handle, name, p)).status == 0) &&
      r.2 == CheckError(o(e.step, AttachExternalBuffer(mb.handle, name, p)).status, o(e.step, AttachExternalBuffer(mb.handle, name, p)).message) &&
      r.1.step == e.step + 1
    ensures r.1.live == e.live && r.1.next == e.next && r.1.memory == e.memory
  {
    if buffer.None? || Remaining(buffer.value) <= 0 then (mb, e, Fail(EmptyData))
    else
      var p := CopyBuffer(buffer).value;
      var mb1 := mb.(externalBuffers := mb.externalBuffers + [p]);
      var (e1, outcome) := AttachImpl(mb1, name, p, e, o);
      (mb1, e1, outcome)
  }

  /**
   * `attachExternalBuffer(name, values, offset, length)`: the floats are
   * copied into a new native allocation (nothing changes if the copy throws),
   * appended to the list, then attached.
   */
  function AttachFloats(mb: ModelBuilder, name: string, values: Option<seq<F32>>, offset: int32, length: int32, e: Engine, o: Oracle): (r: (ModelBuilder, Engine, Outcome<Exception>))
    ensures CopyFloats(values, offset, length).Failure? ==>
      r == (mb, e, Fail(CopyFloats(values, offset, length).error))
    ensures CopyFloats(values, offset, length).Success? ==>
      var p := CopyFloats(values, offset, length).value;
      r.0 == mb.(externalBuffers := mb.externalBuffers + [p]) &&
      Visible(p) == Flatten(values.value[offset .. offset + length]) &&
      (r.2.Pass? <==> o(e.step, AttachExternalBuffer(mb.handle, name, p)).status == 0) &&
      r.2 == CheckError(o(e.step, AttachExternalBuffer(mb.handle, name, p)).status, o(e.step, AttachExternalBuffer(mb.handle, name, p)).message) &&
      r.1.step == e.step + 1
    ensures r.1.live == e.live && r.1.next == e.next && r.1.memory == e.memory
  {
    match CopyFloats(values, offset, length)
    case Failure(err) => (mb, e, Fail(err))
    case Success(p) =>
      var mb1 := mb.(externalBuffers := mb.externalBuffers + [p]);
      var (e1, outcome) := AttachImpl(mb1, name, p, e, o);
      (mb1, e1, outcome)
  }

  /** `attachExternalBuffer(name, values)`: the whole array; a null array throws before any copy. */
  function AttachAllFloats(mb: ModelBuilder, name: string, values: Option<seq<F32>>, e: Engine, o: Oracle): (r: (ModelBuilder, Engine, Outcome<Exception>))
    requires values.Some? ==> |values.value| <= INT_MAX
    ensures values.None? ==> r == (mb, e, Fail(Library(NullPointer)))
    ensures values.Some? && |values.value| == 0 ==> r == (mb, e, Fail(EmptyValues))
    ensures values.Some? && |values.value| > 0 ==>
      |r.0.externalBuffers| == |mb.externalBuffers| + 1 &&
      r.0.externalBuffers[..|mb.externalBuffers|] == mb.externalBuffers &&
      WellFormed(r.0.externalBuffers[|mb.externalBuffers|]) &&
      Visible(r.0.externalBuffers[|mb.externalBuffers|]) == Flatten(values.value)
  {
    if values.None? then (mb, e, Fail(Library(NullPointer)))
    else
      assert values.value[0 .. |values.value|] == values.value;
      AttachFloats(mb, name, values, 0, |values.value| as int32, e, o)
  }

  /**
   * `build(modelData, backendName, backendConfig)`: a `Model` wrapping a fresh
   * handle and a copy of the attached list; on failure nothing is created.
   */
  function Build(mb: ModelBuilder, md: ModelData, backendName: string, backendConfig: string, e: Engine, o: Oracle): (r: (Engine, Result<Model, Exception>))
    requires Valid(e)
    ensures Valid(r.0) && r.0.step == e.step + 1 && r.0.memory == e.memory && r.0.scratch == e.scratch
    ensures r.1.Success? <==> o(e.step, BuildModel(mb.handle, md.handle, backendName, backendConfig)).status == 0
    ensures r.1.Success? ==>
      r.1.value == Model(Addr(e.next), mb.externalBuffers) &&
      r.0.live == e.live + {e.next} && r.0.next == e.next + 1
    ensures r.1.Failure? ==> r.0.live == e.live && r.0.next == e.next
    ensures r.1.Success? ==> r.0.log == e.log + [Invoked(BuildModel(mb.handle, md.handle, backendName, backendConfig))]
    ensures r.1.Failure? ==> r.0.log == e.log + [Invoked(BuildModel(mb.handle, md.handle, backendName, backendConfig)), ReadLastError]
    ensures r.1.Failure? ==> r.1.error == CheckError(o(e.step, BuildModel(mb.handle, md.handle, backendName, backendConfig)).status, o(e.step, BuildModel(mb.handle, md.handle, backendName, backendConfig)).message).error
  {
    var (e1, handle) := Create(e, o, BuildModel(mb.handle, md.handle, backendName, backendConfig));
    if handle.Failure? then (e1, Failure(handle.error)) else (e1, Success(Model(handle.value, mb.externalBuffers)))
  }

  /**
   * An unknown backend name: the engine reports INVALID_BACKEND_NAME (12)
   * and `build` throws that code, allocating nothing.
   */
  lemma BuildInvalidBackendName(mb: ModelBuilder, md: ModelData, backendName: string, backendConfig: string, e: Engine, o: Oracle)
    requires Valid(e)
    requires o(e.step, BuildModel(mb.handle, md.handle, backendName, backendConfig)).status == 12
    ensures Build(mb, md, backendName, backendConfig, e, o).1 ==
      Failure(MenohException(INVALID_BACKEND_NAME,
        "invalid_backend_name" + ": " + o(e.step, BuildModel(mb.handle, md.handle, backendName, backendConfig)).message, None))
    ensures Build(mb, md, backendName, backendConfig, e, o).0.live == e.live
  {
    CheckErrorInvalidBackendName(o(e.step, BuildModel(mb.handle, md.handle, backendName, backendConfig)).message);
  }

  /**
   * `Model.close()`: on an open model, deletes it, sets the handle to NULL and
   * clears its list; on a closed one, does nothing.
   */
  function CloseModel(m: Model, e: Engine): (r: (Model, Engine))
    ensures r.0.handle == Null
    ensures m.handle.Addr? ==>
      r.0.externalBuffers == [] &&
      r.1 == e.(live := e.live - {m.handle.id}, log := e.log + [Invoked(DeleteModel(m.handle))])
    ensures m.handle == Null ==> r == (m, e)
    ensures Valid(e) ==> Valid(r.1)
  {
    if m.handle == Null then (m, e)
    else (Model(Null, []), Release(e, m.handle, DeleteModel(m.handle)))
  }

  /** Closing a model twice: the second call changes nothing. */
  lemma CloseModelIdempotent(m: Model, e: Engine)
    ensures CloseModel(CloseModel(m, e).0, CloseModel(m, e).1) == CloseModel(m, e)
  {
  }

  /**
   * The two lists are independent: after a successful build, closing the
   * builder leaves the model's list (and handle) as built, and closing the
   * model leaves the builder's list as it was; each close deletes only its
   * own engine object.
   */
  lemma ClosesAreIndependent(mb: ModelBuilder, md: ModelData, backendName: string, backendConfig: string, e: Engine, o: Oracle)
    requires Valid(e) && mb.handle.Addr? && mb.handle.id in e.live
    requires Build(mb, md, backendName, backendConfig, e, o).1.Success?
    ensures
      var (e1, res) := Build(mb, md, backendName, backendConfig, e, o);
      var m := res.value;
      var (mb2, e2) := CloseBuilder(mb, e1);
      var (m3, e3) := CloseModel(m, e2);
      m.externalBuffers == mb.externalBuffers &&
      mb2.externalBuffers == [] && m.handle.id in e2.live &&
      e3.live == e.live - {mb.handle.id}
  {
  }

  /**
   * `getVariable(name)`: dtype, dims size, each dim, then the buffer handle,
   * and only at the end `DType.valueOf` on the reported dtype id.
   */
  function GetVariable(m: Model, name: string, e: Engine, o: Oracle): (r: (Engine, Result<Variable, Exception>))
    ensures r.0.live == e.live && r.0.next == e.next && r.0.memory == e.memory && r.0.scratch == e.scratch
    ensures o(e.step, ModelGetDtype(m.handle, name)).status != 0 ==>
      r.1 == Failure(CheckError(o(e.step, ModelGetDtype(m.handle, name)).status, o(e.step, ModelGetDtype(m.handle, name)).message).error) &&
      r.0.log == e.log + [Invoked(ModelGetDtype(m.handle, name)), ReadLastError]
    ensures r.1.Success? ==>
      var dims := DimsOf(r.1.value.dims);
      r.1.value.dims.Some? &&
      DTypes.Id(r.1.value.dtype) == o(e.step, ModelGetDtype(m.handle, name)).value &&
      |dims| == o(e.step + 1, ModelGetDimsSize(m.handle, name)).value &&
      r.0.step == e.step + 3 + |dims| &&
      r.1.value.bufferHandle == o(e.step + 2 + |dims|, ModelGetBufferHandle(m.handle, name)).pointer &&
      forall i :: 0 <= i < |dims| ==> dims[i] == o(e.step + 2 + i, ModelGetDimsAt(m.handle, name, i)).value
    ensures o(e.step, ModelGetDtype(m.handle, name)).status == 0 && o(e.step + 1, ModelGetDimsSize(m.handle, name)).status != 0 ==>
      r.1 == Failure(CheckError(o(e.step + 1, ModelGetDimsSize(m.handle, name)).status, o(e.step + 1, ModelGetDimsSize(m.handle, name)).message).error) &&
      r.0.log == e.log + [Invoked(ModelGetDtype(m.handle, name)), Invoked(ModelGetDimsSize(m.handle, name)), ReadLastError]
    ensures
      var schema := QuerySchema(e, o, ModelOwner(m.handle), name).1;
      r.1.Success? <==>
        schema.Success? &&
        o(e.step + 2 + |schema.value.1|, ModelGetBufferHandle(m.handle, name)).status == 0 &&
        0 <= schema.value.0 < |DTypes.Values|
  {
    var (e1, schema) := QuerySchema(e, o, ModelOwner(m.handle), name);
    if schema.Failure? then (e1, Failure(schema.error))
    else Resolve(m, name, schema.value.0, schema.value.1, e1, o)
  }

  /**
   * The end of `getVariable(name)` once the dtype id and the dims are known:
   * the buffer-handle query, then `DType.valueOf` on the id.
   */
  function Resolve(m: Model, name: string, id: int32, dims: seq<int32>, e: Engine, o: Oracle): (r: (Engine, Result<Variable, Exception>))
    ensures r.0.live == e.live && r.0.next == e.next && r.0.memory == e.memory && r.0.scratch == e.scratch
    ensures r.0.step == e.step + 1
    ensures r.1.Success? <==> o(e.step, ModelGetBufferHandle(m.handle, name)).status == 0 && 0 <= id < |DTypes.Values|
    ensures r.1.Success? ==>
      DTypes.Id(r.1.value.dtype) == id && r.1.value.dims == Some(dims) &&
      r.1.value.bufferHandle == o(e.step, ModelGetBufferHandle(m.handle, name)).pointer
    ensures o(e.step, ModelGetBufferHandle(m.handle, name)).status == 0 && !(0 <= id < |DTypes.Values|) ==>
      r.1 == Failure(MenohException(UNDEFINED, "undefined dtype: " + Decimal(id), None)) &&
      r.0.log == e.log + [Invoked(ModelGetBufferHandle(m.handle, name))]
  {
    var (e1, buffer) := QueryPtr(e, o, ModelGetBufferHandle(m.handle, name));
    if buffer.Failure? then (e1, Failure(buffer.error))
    else
      match DTypes.ValueOf(id)
      case Failure(err) => (e1, Failure(err))
      case Success(dtype) => (e1, Success(Variable(dtype, Some(dims), buffer.value)))
  }

  /** An unknown dtype id fails `getVariable`, but only after the buffer-handle query was made. */
  lemma GetVariableUnknownDType(m: Model, name: string, e: Engine, o: Oracle)
    requires o(e.step, ModelGetDtype(m.handle, name)).status == 0
    requires o(e.step, ModelGetDtype(m.handle, name)).value == 7
    requires o(e.step + 1, ModelGetDimsSize(m.handle, name)).status == 0
    requires o(e.step + 1, ModelGetDimsSize(m.handle, name)).value == 0
    requires o(e.step + 2, ModelGetBufferHandle(m.handle, name)).status == 0
    ensures GetVariable(m, name, e, o).1 == Failure(MenohException(UNDEFINED, "undefined dtype: 7", None))
    ensures GetVariable(m, name, e, o).0.log ==
      e.log + [Invoked(ModelGetDtype(m.handle, name)), Invoked(ModelGetDimsSize(m.handle, name)),
               Invoked(ModelGetBufferHandle(m.handle, name))]
  {
    UnknownDTypeSeven();
    var dtypeCall, sizeCall, handleCall := ModelGetDtype(m.handle, name), ModelGetDimsSize(m.handle, name), ModelGetBufferHandle(m.handle, name);
    var (e1, schema) := QuerySchema(e, o, ModelOwner(m.handle), name);
    assert DimCalls(ModelOwner(m.handle), name, 0, 0) == [];
    assert schema.Success? && schema.value.0 == 7 && e1.step == e.step + 2;
    assert e1.log == e.log + [Invoked(dtypeCall), Invoked(sizeCall)];
    var (e2, buffer) := QueryPtr(e1, o, handleCall);
    assert buffer.Success? && e2.log == e.log + [Invoked(dtypeCall), Invoked(sizeCall), Invoked(handleCall)];
  }

  /** `run()`: one native call; the inference result itself is the engine's business. */
  function Run(m: Model, e: Engine, o: Oracle): (r: (Engine, Outcome<Exception>))
    ensures r.0.live == e.live && r.0.next == e.next && r.0.memory == e.memory && r.0.scratch == e.scratch
    ensures r.1 == CheckError(o(e.step, ModelRun(m.handle)).status, o(e.step, ModelRun(m.handle)).message)
    ensures r.1.Pass? ==> r.0.log == e.log + [Invoked(ModelRun(m.handle))]
  {
    Perform(e, o, ModelRun(m.handle))
  }
}

=== FILE: native.dfy ===
/**
 * The native Menoh engine as the binding sees it through its foreign
 * function table (src/.../MenohNative.java). The engine is opaque: every
 * status-returning call is answered by an arbitrary `Oracle`, indexed by the
 * position of the call in the run, and every handle it creates is fresh.
 */
module Native {
  import opened Wrappers
  import opened JavaInt
  import opened Errors
  import opened Buffers

  /** A JNA `Pointer` to an engine object or engine memory; `Null` is `Pointer.NULL`. */
  datatype Ptr = Null | Addr(id: nat)

  /** The foreign functions, with the arguments the binding passes. */
  datatype Call =
    | MakeModelDataFromOnnx(path: string)
    | DeleteModelData(modelData: Ptr)
    | ModelDataOptimize(modelData: Ptr, table: Ptr)
    | MakeVptBuilder
    | DeleteVptBuilder(builder: Ptr)
    | AddInputProfile(builder: Ptr, name: string, dtype: int32, dimsSize: int32, dims: seq<int32>)
    | AddInputProfileDims2(builder: Ptr, name: string, dtype: int32, num: int32, size: int32)
    | AddInputProfileDims4(builder: Ptr, name: string, dtype: int32, num: int32, channel: int32, height: int32, width: int32)
    | AddOutputName(builder: Ptr, name: string)
    | AddOutputProfile(builder: Ptr, name: string, dtype: int32)
    | BuildVpt(builder: Ptr, modelData: Ptr)
    | DeleteVpt(table: Ptr)
    | VptGetDtype(table: Ptr, name: string)
    | VptGetDimsSize(table: Ptr, name: string)
    | VptGetDimsAt(table: Ptr, name: string, index: int32)
    | MakeModelBuilder(table: Ptr)
    | DeleteModelBuilder(builder: Ptr)
    | AttachExternalBuffer(builder: Ptr, name: string, buffer: NativeBuffer)
    | BuildModel(builder: Ptr, modelData: Ptr, backendName: string, backendConfig: string)
    | DeleteModel(model: Ptr)
    | ModelGetDtype(model: Ptr, name: string)
    | ModelGetDimsSize(model: Ptr, name: string)
    | ModelGetDimsAt(model: Ptr, name: string, index: int32)
    | ModelGetBufferHandle(model: Ptr, name: string)
    | ModelRun(model: Ptr)

  /** The engine's answer to one call: a status code, an `int` out-parameter, a pointer out-parameter, and the message it records on failure. */
  datatype Reply = Reply(status: int32, value: int32, pointer: Ptr, message: string)

  /** The engine's behaviour: the reply to the call made at each step. */
  type Oracle = (nat, Call) -> Reply

  /** What the binding does to the outside world, in order. */
  datatype Event =
    | Invoked(call: Call)   // a foreign call
    | ReadLastError         // `menoh_get_last_error_message()`
    | Allocate(id: nat)     // a temporary JNA allocation
    | Dispose(id: nat)      // its release

  /**
   * The world outside the JVM heap: the live engine handles, the next fresh
   * id, the number of oracle answers consumed, the engine's last error
   * message, the engine-owned variable buffers by address, the live temporary
   * allocations, and the event log.
   */
  datatype Engine = Engine(
    live: set<nat>, next: nat, step: nat, lastError: string,
    memory: map<nat, seq<byte>>, scratch: set<nat>, log: seq<Event>)

  /** Every live handle and allocation was issued before `next`. */
  ghost predicate Valid(e: Engine) {
    (forall h :: h in e.live ==> h < e.next) && (forall h :: h in e.scratch ==> h < e.next)
  }

  /** One status-returning foreign call: logs it, consumes one oracle answer, and records the failure message. */
  function Invoke(e: Engine, o: Oracle, c: Call): (r: (Engine, Reply))
    ensures r.1 == o(e.step, c)
    ensures r.0.log == e.log + [Invoked(c)] && r.0.step == e.step + 1
    ensures r.0.live == e.live && r.0.next == e.next && r.0.memory == e.memory && r.0.scratch == e.scratch
    ensures r.1.status != 0 ==> r.0.lastError == r.1.message
  {
    var reply := o(e.step, c);
    var e' := e.(step := e.step + 1, log := e.log + [Invoked(c)]);
    (if reply.status != 0 then e'.(lastError := reply.message) else e', reply)
  }

  /**
   * `checkError(status)` right after a call: success reads nothing; a failure
   * reads the engine's last error message exactly once and classifies it.
   */
  function Check(e: Engine, status: int32): (r: (Engine, Outcome<Exception>))
    ensures r.1 == CheckError(status, e.lastError)
    ensures status == 0 ==> r.0 == e
    ensures status != 0 ==> r.0 == e.(log := e.log + [ReadLastError])
  {
    if status == Id(SUCCESS) then (e, Pass)
    else (e.(log := e.log + [ReadLastError]), CheckError(status, e.lastError))
  }

  /** A call that creates an engine object: on success the object gets the next fresh handle. */
  function Create(e: Engine, o: Oracle, c: Call): (r: (Engine, Result<Ptr, Exception>))
    requires Valid(e)
    ensures Valid(r.0) && r.0.step == e.step + 1 && r.0.memory == e.memory && r.0.scratch == e.scratch
    ensures r.1.Success? <==> o(e.step, c).status == 0
    ensures r.1.Success? ==>
      r.1.value == Addr(e.next) && e.next !in e.live &&
      r.0.live == e.live + {e.next} && r.0.next == e.next + 1 && r.0.log == e.log + [Invoked(c)]
    ensures r.1.Failure? ==>
      r.0.live == e.live && r.0.next == e.next && r.0.log == e.log + [Invoked(c), ReadLastError] &&
      r.1.error == CheckError(o(e.step, c).status, o(e.step, c).message).error
  {
    var (e1, reply) := Invoke(e, o, c);
    var (e2, outcome) := Check(e1, reply.status);
    if outcome.Fail? then (e2, Failure(outcome.error))
    else (e2.(live := e2.live + {e2.next}, next := e2.next + 1), Success(Addr(e2.next)))
  }

  /** A status-returning call whose only result is the status: `checkError(native(...))`. */
  function Perform(e: Engine, o: Oracle, c: Call): (r: (Engine, Outcome<Exception>))
    ensures r.0.live == e.live && r.0.next == e.next && r.0.memory == e.memory && r.0.scratch == e.scratch
    ensures r.0.step == e.step + 1
    ensures r.1 == CheckError(o(e.step, c).status, o(e.step, c).message)
    ensures r.1.Pass? ==> r.0.log == e.log + [Invoked(c)]
    ensures r.1.Fail? ==> r.0.log == e.log + [Invoked(c), ReadLastError]
  {
    var (e1, reply) := Invoke(e, o, c);
    Check(e1, reply.status)
  }

  /** A query with an `int` out-parameter: the value is read only when the status is 0. */
  function QueryInt(e: Engine, o: Oracle, c: Call): (r: (Engine, Result<int32, Exception>))
    ensures r.0.live == e.live && r.0.next == e.next && r.0.memory == e.memory && r.0.scratch == e.scratch
    ensures r.0.step == e.step + 1
    ensures r.1.Success? <==> o(e.step, c).status == 0
    ensures r.1.Success? ==> r.1.value == o(e.step, c).value && r.0.log == e.log + [Invoked(c)]
    ensures r.1.Failure? ==> r.0.log == e.log + [Invoked(c), ReadLastError] && r.1.error == CheckError(o(e.step, c).status, o(e.step, c).message).error
  {
    var (e1, outcome) := Perform(e, o, c);
    if outcome.Fail? then (e1, Failure(outcome.error)) else (e1, Success(o(e.step, c).value))
  }

  /** A query with a pointer out-parameter. */
  function QueryPtr(e: Engine, o: Oracle, c: Call): (r: (Engine, Result<Ptr, Exception>))
    ensures r.0.live == e.live && r.0.next == e.next && r.0.memory == e.memory && r.0.scratch == e.scratch
    ensures r.0.step == e.step + 1
    ensures r.1.Success? <==> o(e.step, c).status == 0
    ensures r.1.Success? ==> r.1.value == o(e.step, c).pointer && r.0.log == e.log + [Invoked(c)]
    ensures r.1.Failure? ==> r.0.log == e.log + [Invoked(c), ReadLastError] && r.1.error == CheckError(o(e.step, c).status, o(e.step, c).message).error
  {
    var (e1, outcome) := Perform(e, o, c);
    if outcome.Fail? then (e1, Failure(outcome.error)) else (e1, Success(o(e.step, c).pointer))
  }

  /**
   * The release guarded by `handle != Pointer.NULL` in every `close()`: a live
   * wrapper deletes its engine object once; a closed one does nothing.
   */
  function Release(e: Engine, handle: Ptr, delete: Call): (r: Engine)
    ensures handle == Null ==> r == e
    ensures handle.Addr? ==>
      r == e.(live := e.live - {handle.id}, log := e.log + [Invoked(delete)])
    ensures Valid(e) ==> Valid(r)
  {
    if handle != Null then e.(live := e.live - {handle.id}, log := e.log + [Invoked(delete)]) else e
  }

  /** The object whose variables' schema is queried: a profile table or a compiled model. */
  datatype Owner = TableOwner(table: Ptr) | ModelOwner(model: Ptr)

  /** The dtype query of the variable `name` of `w`. */
  function DtypeQuery(w: Owner, name: string): Call {
    match w
    case TableOwner(t) => VptGetDtype(t, name)
    case ModelOwner(m) => ModelGetDtype(m, name)
  }

  /** The dims-size query of the variable `name` of `w`. */
  function SizeQuery(w: Owner, name: string): Call {
    match w
    case TableOwner(t) => VptGetDimsSize(t, name)
    case ModelOwner(m) => ModelGetDimsSize(m, name)
  }

  /** The query of dimension `i` of the variable `name` of `w`. */
  function DimQuery(w: Owner, name: string, i: int32): Call {
    match w
    case TableOwner(t) => VptGetDimsAt(t, name, i)
    case ModelOwner(m) => ModelGetDimsAt(m, name, i)
  }

  /**
   * The dims query loop shared by `Model.getVariable` and
   * `VariableProfileTable.variableProfile`: `new int[size]` (negative sizes
   * fail), then `dims[i]` from the i-th "dims at" call for i = 0 .. size - 1,
   * aborting at the first failing status.
   */
  function QueryDims(e: Engine, o: Oracle, size: int32, w: Owner, name: string): (r: (Engine, Result<seq<int32>, Exception>))
    ensures r.0.live == e.live && r.0.next == e.next && r.0.memory == e.memory && r.0.scratch == e.scratch
    ensures size < 0 ==> r == (e, Failure(Library(NegativeArraySize)))
    ensures r.1.Success? ==>
      |r.1.value| == size && r.0.step == e.step + size &&
      forall i :: 0 <= i < size ==> r.1.value[i] == o(e.step + i, DimQuery(w, name, i)).value && o(e.step + i, DimQuery(w, name, i)).status == 0
    ensures size >= 0 ==> (r.1.Success? <==> Answered(o, e.step, w, name, 0, size))
    ensures r.1.Success? ==> r.0.log == e.log + DimCalls(w, name, 0, size)
    ensures r.1.Failure? && size >= 0 ==>
      exists i :: 0 <= i < size && o(e.step + i, DimQuery(w, name, i)).status != 0
  {
    if size < 0 then (e, Failure(Library(NegativeArraySize)))
    else QueryDimsFrom(e, o, size, w, name, e.step, 0, [])
  }

  /** Every dims query from index `i` up to `size` reports success, the first at oracle step `step`. */
  ghost predicate Answered(o: Oracle, step: nat, w: Owner, name: string, i: int32, size: int32)
    requires 0 <= i <= size
    decreases size - i
  {
    i == size || (o(step, DimQuery(w, name, i)).status == 0 && Answered(o, step + 1, w, name, i + 1, size))
  }

  /** The log of the dims queries from index `i` up to `size`, in index order. */
  function DimCalls(w: Owner, name: string, i: int32, size: int32): seq<Event>
    requires 0 <= i <= size
    decreases size - i
  {
    if i == size then [] else [Invoked(DimQuery(w, name, i))] + DimCalls(w, name, i + 1, size)
  }

  /**
   * The loop of `QueryDims` from index `i`, with `dims[0 .. i)` already
   * filled; the query for index `j` is the oracle's step `start + j`.
   */
  function QueryDimsFrom(e: Engine, o: Oracle, size: int32, w: Owner, name: string, start: nat, i: int32, acc: seq<int32>): (r: (Engine, Result<seq<int32>, Exception>))
    requires 0 <= i <= size && |acc| == i && e.step == start + i
    ensures r.0.live == e.live && r.0.next == e.next && r.0.memory == e.memory && r.0.scratch == e.scratch
    ensures r.1.Success? ==>
      |r.1.value| == size && r.1.value[..i] == acc && r.0.step == start + size &&
      forall j :: i <= j < size ==> r.1.value[j] == o(start + j, DimQuery(w, name, j)).value && o(start + j, DimQuery(w, name, j)).status == 0
    ensures r.1.Success? <==> Answered(o, e.step, w, name, i, size)
    ensures r.1.Success? ==> r.0.log == e.log + DimCalls(w, name, i, size)
    ensures r.1.Failure? ==>
      exists j :: i <= j < size && o(start + j, DimQuery(w, name, j)).status != 0
    decreases size - i
  {
    if i == size then (e, Success(acc))
    else
      var (e1, d) := QueryInt(e, o, DimQuery(w, name, i));
      if d.Failure? then (e1, Failure(d.error))
      else
        var r := QueryDimsFrom(e1, o, size, w, name, start, i + 1, acc + [d.value]);
        DimsStep(o, w, name, start, i, size, acc, d.value, r.1);
        AnsweredStep(o, e.step, w, name, i, size);
        CallsStep(r.0.log, e.log, w, name, i, size);
        r
  }

  /** One step of the dims loop: the answer for index `i`, then those after it. */
  lemma DimsStep(o: Oracle, w: Owner, name: string, start: nat, i: int32, size: int32, acc: seq<int32>, d: int32, r: Result<seq<int32>, Exception>)
    requires 0 <= i < size && |acc| == i
    requires o(start + i, DimQuery(w, name, i)).status == 0 && d == o(start + i, DimQuery(w, name, i)).value
    requires r.Success? ==>
      |r.value| == size && r.value[..i + 1] == acc + [d] &&
      forall j :: i + 1 <= j < size ==> r.value[j] == o(start + j, DimQuery(w, name, j)).value && o(start + j, DimQuery(w, name, j)).status == 0
    requires r.Failure? ==> exists j :: i + 1 <= j < size && o(start + j, DimQuery(w, name, j)).status != 0
    ensures r.Success? ==>
      r.value[..i] == acc &&
      forall j :: i <= j < size ==> r.value[j] == o(start + j, DimQuery(w, name, j)).value && o(start + j, DimQuery(w, name, j)).status == 0
    ensures r.Failure? ==> exists j :: i <= j < size && o(start + j, DimQuery(w, name, j)).status != 0
  {
    if r.Success? {
      assert r.value[..i] == r.value[..i + 1][..i];
      assert r.value[i] == r.value[..i + 1][i];
    }
  }

  /** `Answered` from `i` is the answer for `i`, then `Answered` from `i + 1`. */
  lemma AnsweredStep(o: Oracle, step: nat, w: Owner, name: string, i: int32, size: int32)
    requires 0 <= i < size
    ensures Answered(o, step, w, name, i, size) <==> o(step, DimQuery(w, name, i)).status == 0 && Answered(o, step + 1, w, name, i + 1, size)
  {
  }

  /** Logging the call for `i` and then the calls after it logs the calls from `i`. */
  lemma CallsStep(log: seq<Event>, before: seq<Event>, w: Owner, name: string, i: int32, size: int32)
    requires 0 <= i < size
    ensures log == before + [Invoked(DimQuery(w, name, i))] + DimCalls(w, name, i + 1, size) <==> log == before + DimCalls(w, name, i, size)
  {
    assert before + [Invoked(DimQuery(w, name, i))] + DimCalls(w, name, i + 1, size) == before + ([Invoked(DimQuery(w, name, i))] + DimCalls(w, name, i + 1, size));
  }

  /**
   * The schema query sequence shared by `Model.getVariable` and
   * `VariableProfileTable.variableProfile`: the dtype id, the dims size, then
   * each dim in index order; the first failing status aborts the sequence.
   */
  function QuerySchema(e: Engine, o: Oracle, w: Owner, name: string): (r: (Engine, Result<(int32, seq<int32>), Exception>))
    ensures r.0.live == e.live && r.0.next == e.next && r.0.memory == e.memory && r.0.scratch == e.scratch
    ensures o(e.step, DtypeQuery(w, name)).status != 0 ==>
      r.1 == Failure(CheckError(o(e.step, DtypeQuery(w, name)).status, o(e.step, DtypeQuery(w, name)).message).error) &&
      r.0.log == e.log + [Invoked(DtypeQuery(w, name)), ReadLastError]
    ensures o(e.step, DtypeQuery(w, name)).status == 0 && o(e.step + 1, SizeQuery(w, name)).status != 0 ==>
      r.1 == Failure(CheckError(o(e.step + 1, SizeQuery(w, name)).status, o(e.step + 1, SizeQuery(w, name)).message).error) &&
      r.0.log == e.log + [Invoked(DtypeQuery(w, name)), Invoked(SizeQuery(w, name)), ReadLastError]
    ensures r.1.Success? <==>
      o(e.step, DtypeQuery(w, name)).status == 0 && o(e.step + 1, SizeQuery(w, name)).status == 0 &&
      0 <= o(e.step + 1, SizeQuery(w, name)).value &&
      Answered(o, e.step + 2, w, name, 0, o(e.step + 1, SizeQuery(w, name)).value)
    ensures r.1.Success? ==>
      r.0.log == e.log + [Invoked(DtypeQuery(w, name)), Invoked(SizeQuery(w, name))] + DimCalls(w, name, 0, o(e.step + 1, SizeQuery(w, name)).value)
    ensures r.1.Success? ==>
      var dims := r.1.value.1;
      o(e.step, DtypeQuery(w, name)).status == 0 && r.1.value.0 == o(e.step, DtypeQuery(w, name)).value &&
      o(e.step + 1, SizeQuery(w, name)).status == 0 && |dims| == o(e.step + 1, SizeQuery(w, name)).value &&
      r.0.step == e.step + 2 + |dims| &&
      forall i :: 0 <= i < |dims| ==> dims[i] == o(e.step + 2 + i, DimQuery(w, name, i)).value
  {
    var (e1, dtype) := QueryInt(e, o, DtypeQuery(w, name));
    if dtype.Failure? then (e1, Failure(dtype.error))
    else
      var (e2, size) := QueryInt(e1, o, SizeQuery(w, name));
      if size.Failure? then (e2, Failure(size.error))
      else
        var (e3, dims) := QueryDims(e2, o, size.value, w, name);
        assert e2.log == e.log + [Invoked(DtypeQuery(w, name)), Invoked(SizeQuery(w, name))] && e2.step == e.step + 2;
        if dims.Failure? then (e3, Failure(dims.error))
        else (e3, Success((dtype.value, dims.value)))
  }
}

=== FILE: profiles.dfy ===
/**
 * The schema layer: `VariableProfileTableBuilder`
 * (menoh/.../VariableProfileTableBuilder.java) and `VariableProfileTable`
 * (menoh/.../VariableProfileTable.java).
 */
module Profiles {
  import opened Wrappers
  import opened JavaInt
  import opened Errors
  import opened DTypes
  import opened Buffers
  import opened Native
  import opened Handles
  import opened Variables

  /** `VariableProfileTable.close()`: releases once, sets NULL; later calls do nothing. */
  function CloseTable(t: VariableProfileTable, e: Engine): (r: (VariableProfileTable, Engine))
    ensures r.0.handle == Null
    ensures t.handle.Addr? ==>
      r.1 == e.(live := e.live - {t.handle.id}, log := e.log + [Invoked(DeleteVpt(t.handle))])
    ensures t.handle == Null ==> r.1 == e
    ensures Valid(e) ==> Valid(r.1)
  {
    (t.(handle := Null), Release(e, t.handle, DeleteVpt(t.handle)))
  }

  /**
   * `variableProfile(name)`: the dtype, dims size and dims queries, then
   * `DType.valueOf` on the reported id.
   */
  function ProfileOf(t: VariableProfileTable, name: string, e: Engine, o: Oracle): (r: (Engine, Result<VariableProfile, Exception>))
    ensures r.0.live == e.live && r.0.next == e.next && r.0.memory == e.memory && r.0.scratch == e.scratch
    ensures o(e.step, VptGetDtype(t.handle, name)).status != 0 ==>
      r.1 == Failure(CheckError(o(e.step, VptGetDtype(t.handle, name)).status, o(e.step, VptGetDtype(t.handle, name)).message).error) &&
      r.0.log == e.log + [Invoked(VptGetDtype(t.handle, name)), ReadLastError]
    ensures r.1.Success? ==>
      var dims := DimsOf(r.1.value.dims);
      r.1.value.dims.Some? &&
      DTypes.Id(r.1.value.dtype) == o(e.step, VptGetDtype(t.handle, name)).value &&
      |dims| == o(e.step + 1, VptGetDimsSize(t.handle, name)).value &&
      forall i :: 0 <= i < |dims| ==> dims[i] == o(e.step + 2 + i, VptGetDimsAt(t.handle, name, i)).value
    ensures QuerySchema(e, o, TableOwner(t.handle), name).1.Success? ==>
      (r.1.Success? <==> 0 <= o(e.step, VptGetDtype(t.handle, name)).value < |DTypes.Values|)
    ensures o(e.step, VptGetDtype(t.handle, name)).status == 0 && o(e.step + 1, VptGetDimsSize(t.handle, name)).status != 0 ==>
      r.1 == Failure(CheckError(o(e.step + 1, VptGetDimsSize(t.handle, name)).status, o(e.step + 1, VptGetDimsSize(t.handle, name)).message).error) &&
      r.0.log == e.log + [Invoked(VptGetDtype(t.handle, name)), Invoked(VptGetDimsSize(t.handle, name)), ReadLastError]
    ensures r.1.Success? <==>
      QuerySchema(e, o, TableOwner(t.handle), name).1.Success? &&
      0 <= o(e.step, VptGetDtype(t.handle, name)).value < |DTypes.Values|
  {
    var (e1, schema) := QuerySchema(e, o, TableOwner(t.handle), name);
    if schema.Failure? then (e1, Failure(schema.error))
    else
      match DTypes.ValueOf(schema.value.0)
      case Failure(err) => (e1, Failure(err))
      case Success(dtype) => (e1, Success(VariableProfile(dtype, Some(schema.value.1))))
  }

  /**
   * An unknown dtype id is only looked up after every schema query was
   * made: a scalar reported with dtype 7 throws "undefined dtype: 7" after
   * exactly the dtype and dims-size calls.
   */
  lemma ProfileOfUnknownDType(t: VariableProfileTable, name: string, e: Engine, o: Oracle)
    requires o(e.step, VptGetDtype(t.handle, name)).status == 0
    requires o(e.step, VptGetDtype(t.handle, name)).value == 7
    requires o(e.step + 1, VptGetDimsSize(t.handle, name)).status == 0
    requires o(e.step + 1, VptGetDimsSize(t.handle, name)).value == 0
    ensures ProfileOf(t, name, e, o).1 == Failure(MenohException(UNDEFINED, "undefined dtype: 7", None))
    ensures ProfileOf(t, name, e, o).0.log ==
      e.log + [Invoked(VptGetDtype(t.handle, name)), Invoked(VptGetDimsSize(t.handle, name))]
  {
    UnknownDTypeSeven();
    assert DimCalls(TableOwner(t.handle), name, 0, 0) == [];
  }

  /** `VariableProfileTable.builder()`: a builder with a fresh engine handle. */
  function NewBuilder(e: Engine, o: Oracle): (r: (Engine, Result<VariableProfileTableBuilder, Exception>))
    requires Valid(e)
    ensures Valid(r.0) && r.0.step == e.step + 1 && r.0.memory == e.memory && r.0.scratch == e.scratch
    ensures r.1.Success? <==> o(e.step, MakeVptBuilder).status == 0
    ensures r.1.Success? ==> r.1.value.handle == Addr(e.next) && r.0.live == e.live + {e.next} && r.0.next == e.next + 1
    ensures r.1.Failure? ==> r.0.live == e.live && r.0.next == e.next
    ensures r.1.Failure? ==> r.1.error == CheckError(o(e.step, MakeVptBuilder).status, o(e.step, MakeVptBuilder).message).error
  {
    var (e1, handle) := Create(e, o, MakeVptBuilder);
    if handle.Failure? then (e1, Failure(handle.error)) else (e1, Success(VariableProfileTableBuilder(handle.value)))
  }

  /** `VariableProfileTableBuilder.close()`: releases once, sets NULL; later calls do nothing. */
  function CloseBuilder(b: VariableProfileTableBuilder, e: Engine): (r: (VariableProfileTableBuilder, Engine))
    ensures r.0.handle == Null
    ensures b.handle.Addr? ==>
      r.1 == e.(live := e.live - {b.handle.id}, log := e.log + [Invoked(DeleteVptBuilder(b.handle))])
    ensures b.handle == Null ==> r.1 == e
    ensures Valid(e) ==> Valid(r.1)
  {
    (b.(handle := Null), Release(e, b.handle, DeleteVptBuilder(b.handle)))
  }

  /**
   * `addInputProfile(name, dtype, dims)`: copies the dims into a temporary
   * native allocation, forwards their number and values (any rank), checks
   * the status, and disposes of the allocation whether or not the call
   * succeeded. Returns the same builder.
   */
  function AddInputProfile(b: VariableProfileTableBuilder, name: string, dtype: DType, dims: seq<int32>, e: Engine, o: Oracle): (r: (Engine, Result<VariableProfileTableBuilder, Exception>))
    requires Valid(e) && |dims| <= INT_MAX
    ensures Valid(r.0) && r.0.live == e.live && r.0.memory == e.memory
    ensures r.0.scratch == e.scratch
    ensures |dims| == 0 ==> r == (e, Failure(EmptyValues))
    ensures |dims| > 0 ==>
      var c := Call.AddInputProfile(b.handle, name, DTypes.Id(dtype), |dims|, dims);
      var tmp := e.next;
      (r.1.Success? <==> o(e.step, c).status == 0) &&
      (r.1.Success? ==> r.1.value == b && r.0.log == e.log + [Allocate(tmp), Invoked(c), Dispose(tmp)]) &&
      (r.1.Failure? ==> r.0.log == e.log + [Allocate(tmp), Invoked(c), ReadLastError, Dispose(tmp)]) &&
      (r.1.Failure? ==> r.1.error == CheckError(o(e.step, c).status, o(e.step, c).message).error)
  {
    if |dims| == 0 then (e, Failure(EmptyValues))
    else
      var (e1, outcome) := WithTemporaryArray(e, o, Call.AddInputProfile(b.handle, name, DTypes.Id(dtype), |dims|, dims));
      if outcome.Fail? then (e1, Failure(outcome.error)) else (e1, Success(b))
  }

  /**
   * A status-only call whose argument JNA copies into a temporary native
   * array: the array is allocated before the call and disposed after it,
   * whatever the status.
   */
  function WithTemporaryArray(e: Engine, o: Oracle, c: Call): (r: (Engine, Outcome<Exception>))
    requires Valid(e)
    ensures Valid(r.0) && r.0.live == e.live && r.0.memory == e.memory && r.0.scratch == e.scratch
    ensures r.1 == CheckError(o(e.step, c).status, o(e.step, c).message)
    ensures r.1.Pass? ==> r.0.log == e.log + [Allocate(e.next), Invoked(c), Dispose(e.next)]
    ensures r.1.Fail? ==> r.0.log == e.log + [Allocate(e.next), Invoked(c), ReadLastError, Dispose(e.next)]
  {
    var tmp := e.next;
    var e1 := e.(next := e.next + 1, scratch := e.scratch + {tmp}, log := e.log + [Allocate(tmp)]);
    var call := Perform(e1, o, c);
    assert tmp !in e.scratch && call.0.scratch - {tmp} == e.scratch;
    (call.0.(scratch := e.scratch, log := call.0.log + [Dispose(tmp)]), call.1)
  }

  /** Rank 5 is forwarded like any other rank. */
  lemma AddInputProfileAnyRank(b: VariableProfileTableBuilder, name: string, dims: seq<int32>, e: Engine, o: Oracle)
    requires Valid(e) && |dims| == 5
    requires o(e.step, Call.AddInputProfile(b.handle, name, DTypes.Id(FLOAT), 5, dims)).status == 0
    ensures AddInputProfile(b, name, FLOAT, dims, e, o).1 == Success(b)
  {
  }

  /** `addOutputName(name)`: one native call; returns the same builder. */
  function AddOutputName(b: VariableProfileTableBuilder, name: string, e: Engine, o: Oracle): (r: (Engine, Result<VariableProfileTableBuilder, Exception>))
    ensures r.0.live == e.live && r.0.next == e.next && r.0.memory == e.memory && r.0.scratch == e.scratch
    ensures r.1.Success? <==> o(e.step, Call.AddOutputName(b.handle, name)).status == 0
    ensures r.1.Success? ==> r.1.value == b && r.0.log == e.log + [Invoked(Call.AddOutputName(b.handle, name))]
    ensures r.1.Failure? ==> r.1.error == CheckError(o(e.step, Call.AddOutputName(b.handle, name)).status, o(e.step, Call.AddOutputName(b.handle, name)).message).error
  {
    var (e1, outcome) := Perform(e, o, Call.AddOutputName(b.handle, name));
    if outcome.Fail? then (e1, Failure(outcome.error)) else (e1, Success(b))
  }

  /** `addOutputProfile(name, dtype)`: ignores the dtype and delegates to `addOutputName`. */
  function AddOutputProfile(b: VariableProfileTableBuilder, name: string, dtype: DType, e: Engine, o: Oracle): (r: (Engine, Result<VariableProfileTableBuilder, Exception>))
    ensures r.0.log == e.log + [Invoked(Call.AddOutputName(b.handle, name))] ||
            r.0.log == e.log + [Invoked(Call.AddOutputName(b.handle, name)), ReadLastError]
  {
    AddOutputName(b, name, e, o)
  }

  /** `addOutputProfile` behaves exactly like `addOutputName`, whatever the dtype. */
  lemma AddOutputProfileIgnoresDType(b: VariableProfileTableBuilder, name: string, d1: DType, d2: DType, e: Engine, o: Oracle)
    ensures AddOutputProfile(b, name, d1, e, o) == AddOutputProfile(b, name, d2, e, o) == AddOutputName(b, name, e, o)
  {
  }

  /** `build(modelData)`: a new table wrapping a fresh engine handle; the builder stays open. */
  function Build(b: VariableProfileTableBuilder, md: ModelData, e: Engine, o: Oracle): (r: (Engine, Result<VariableProfileTable, Exception>))
    requires Valid(e)
    ensures Valid(r.0) && r.0.step == e.step + 1 && r.0.memory == e.memory && r.0.scratch == e.scratch
    ensures r.1.Success? <==> o(e.step, BuildVpt(b.handle, md.handle)).status == 0
    ensures r.1.Success? ==>
      r.1.value.handle == Addr(e.next) && r.0.live == e.live + {e.next} && r.0.next == e.next + 1
    ensures r.1.Failure? ==> r.0.live == e.live && r.0.next == e.next
    ensures r.1.Failure? ==> r.1.error == CheckError(o(e.step, BuildVpt(b.handle, md.handle)).status, o(e.step, BuildVpt(b.handle, md.handle)).message).error
  {
    var (e1, handle) := Create(e, o, BuildVpt(b.handle, md.handle));
    if handle.Failure? then (e1, Failure(handle.error)) else (e1, Success(VariableProfileTable(handle.value)))
  }

  /**
   * A schema naming a variable the model does not have: the engine reports
   * VARIABLE_NOT_FOUND (9) and `build` throws that code, allocating nothing.
   */
  lemma BuildVariableNotFound(b: VariableProfileTableBuilder, md: ModelData, e: Engine, o: Oracle)
    requires Valid(e)
    requires o(e.step, BuildVpt(b.handle, md.handle)).status == 9
    ensures Build(b, md, e, o).1 ==
      Failure(MenohException(VARIABLE_NOT_FOUND,
        "variable_not_found" + ": " + o(e.step, BuildVpt(b.handle, md.handle)).message, None))
    ensures Build(b, md, e, o).0.live == e.live
  {
    CheckErrorVariableNotFound(o(e.step, BuildVpt(b.handle, md.handle)).message);
  }
}

=== FILE: runner_builders.dfy ===
/**
 * `ModelRunnerBuilder` (menoh/.../ModelRunnerBuilder.java): collects the
 * schema, the backend choice and the buffers to attach, and compiles them
 * into a `ModelRunner` in one pipeline that releases every intermediate
 * engine object on every path.
 */
module RunnerBuilders {
  import opened Wrappers
  import opened JavaInt
  import opened Errors
  import opened DTypes
  import opened Buffers
  import opened Native
  import opened Handles
  import Profiles
  import ModelDatas
  import Models

  // ---------------------------------------------------------------------
  // The name-to-buffer map, as an association list in first-insertion order
  // ---------------------------------------------------------------------

  /** The names bound in the map. */
  function Names(m: seq<Entry>): set<string> {
    if |m| == 0 then {} else {m[0].name} + Names(m[1..])
  }

  /** No name is bound twice, as in any `java.util.Map`. */
  ghost predicate UniqueNames(m: seq<Entry>) {
    |m| == 0 || (m[0].name !in Names(m[1..]) && UniqueNames(m[1..]))
  }

  /** `get`, distinguishing an absent name (`None`) from a name bound to null (`Some(None)`). */
  function Lookup(m: seq<Entry>, name: string): (r: Option<Option<ByteBuffer>>)
    ensures r.Some? <==> name in Names(m)
  {
    if |m| == 0 then None
    else if m[0].name == name then Some(m[0].buffer)
    else Lookup(m[1..], name)
  }

  /**
   * `put(name, buffer)`: rebinds a present name in place, or appends a new
   * binding at the end of the list.
   */
  function Put(m: seq<Entry>, name: string, buffer: Option<ByteBuffer>): (r: seq<Entry>)
    ensures Names(r) == Names(m) + {name}
    ensures Lookup(r, name) == Some(buffer)
    ensures forall n :: n != name ==> Lookup(r, n) == Lookup(m, n)
    ensures name in Names(m) ==> |r| == |m|
    ensures name !in Names(m) ==> r == m + [Entry(name, buffer)]
    ensures UniqueNames(m) ==> UniqueNames(r)
  {
    if |m| == 0 then [Entry(name, buffer)]
    else if m[0].name == name then [Entry(name, buffer)] + m[1..]
    else
      var rest := Put(m[1..], name, buffer);
      assert ([m[0]] + rest)[1..] == rest;
      assert name !in Names(m[1..]) ==> m == [m[0]] + m[1..];
      [m[0]] + rest
  }

  /** The last write wins: putting twice under one name equals putting the second value once. */
  lemma {:induction false} PutTwice(m: seq<Entry>, name: string, a: Option<ByteBuffer>, b: Option<ByteBuffer>)
    ensures Put(Put(m, name, a), name, b) == Put(m, name, b)
  {
    if |m| == 0 {
    } else if m[0].name == name {
      assert Put(m, name, a)[1..] == m[1..];
    } else {
      PutTwice(m[1..], name, a, b);
      assert Put(m, name, a)[1..] == Put(m[1..], name, a);
    }
  }

  // ---------------------------------------------------------------------
  // Accessors and configuration
  // ---------------------------------------------------------------------

  /** `backendName(name)`: sets the backend and returns the same builder. */
  function SetBackendName(rb: ModelRunnerBuilder, name: string): (r: ModelRunnerBuilder)
    ensures r.backendName == name
    ensures r.(backendName := rb.backendName) == rb
  {
    rb.(backendName := name)
  }

  /** `backendConfig(config)`: sets the backend configuration and returns the same builder. */
  function SetBackendConfig(rb: ModelRunnerBuilder, config: string): (r: ModelRunnerBuilder)
    ensures r.backendConfig == config
    ensures r.(backendConfig := rb.backendConfig) == rb
  {
    rb.(backendConfig := config)
  }

  /** The engine call a `close()` makes for a handle: one deletion if open, none once closed. */
  function Deletion(p: Ptr, c: Call): seq<Event> {
    if p.Addr? then [Invoked(c)] else []
  }

  /**
   * `close()`: closes the schema builder, then the model data, then clears
   * the map. Each part is itself idempotent, so the whole is.
   */
  function Close(rb: ModelRunnerBuilder, e: Engine): (r: (ModelRunnerBuilder, Engine))
    ensures r.0.vptBuilder.handle == Null && r.0.modelData.handle == Null && r.0.externalBuffers == []
    ensures r.0.backendName == rb.backendName && r.0.backendConfig == rb.backendConfig
    ensures r.1.live == e.live - HandleIds({rb.vptBuilder.handle, rb.modelData.handle})
    ensures rb.vptBuilder.handle.Addr? && rb.modelData.handle.Addr? ==>
      r.1.log == e.log + [Invoked(DeleteVptBuilder(rb.vptBuilder.handle)), Invoked(DeleteModelData(rb.modelData.handle))]
    ensures r.1.log == e.log + Deletion(rb.vptBuilder.handle, DeleteVptBuilder(rb.vptBuilder.handle)) +
      Deletion(rb.modelData.handle, DeleteModelData(rb.modelData.handle))
    ensures Valid(e) ==> Valid(r.1)
  {
    var (vb, e1) := Profiles.CloseBuilder(rb.vptBuilder, e);
    var (md, e2) := ModelDatas.Close(rb.modelData, e1);
    (rb.(vptBuilder := vb, modelData := md, externalBuffers := []), e2)
  }

  /** The engine ids among some handles. */
  function HandleIds(ps: set<Ptr>): set<nat> {
    set p | p in ps && p.Addr? :: p.id
  }

  /** Closing twice: the second `close()` makes no engine call. */
  lemma CloseIdempotent(rb: ModelRunnerBuilder, e: Engine)
    ensures Close(Close(rb, e).0, Close(rb, e).1) == Close(rb, e)
  {
  }

  /** `addInputProfile(name, dtype, dims)`: delegates to the schema builder; returns the same runner builder. */
  function AddInputProfile(rb: ModelRunnerBuilder, name: string, dtype: DType, dims: seq<int32>, e: Engine, o: Oracle): (r: (Engine, Result<ModelRunnerBuilder, Exception>))
    requires Valid(e) && |dims| <= INT_MAX
    ensures r.0 == Profiles.AddInputProfile(rb.vptBuilder, name, dtype, dims, e, o).0
    ensures r.1.Success? <==> Profiles.AddInputProfile(rb.vptBuilder, name, dtype, dims, e, o).1.Success?
    ensures r.1.Success? ==> r.1.value == rb
  {
    var (e1, res) := Profiles.AddInputProfile(rb.vptBuilder, name, dtype, dims, e, o);
    if res.Failure? then (e1, Failure(res.error)) else (e1, Success(rb))
  }

  /** `addOutputProfile(name, dtype)`: delegates to the schema builder; returns the same runner builder. */
  function AddOutputProfile(rb: ModelRunnerBuilder, name: string, dtype: DType, e: Engine, o: Oracle): (r: (Engine, Result<ModelRunnerBuilder, Exception>))
    ensures r.0 == Profiles.AddOutputName(rb.vptBuilder, name, e, o).0
    ensures r.1.Success? <==> o(e.step, AddOutputName(rb.vptBuilder.handle, name)).status == 0
    ensures r.1.Success? ==> r.1.value == rb
  {
    var (e1, res) := Profiles.AddOutputProfile(rb.vptBuilder, name, dtype, e, o);
    if res.Failure? then (e1, Failure(res.error)) else (e1, Success(rb))
  }

  // ---------------------------------------------------------------------
  // Attaching buffers: recorded in the map, validated only by `build()`
  // ---------------------------------------------------------------------

  /** `attachExternalBuffer(name, ByteBuffer)`: a `put` with no validation; null is stored as is. */
  function AttachBuffer(rb: ModelRunnerBuilder, name: string, buffer: Option<ByteBuffer>): (r: ModelRunnerBuilder)
    ensures Lookup(r.externalBuffers, name) == Some(buffer)
    ensures forall n :: n != name ==> Lookup(r.externalBuffers, n) == Lookup(rb.externalBuffers, n)
    ensures r.(externalBuffers := rb.externalBuffers) == rb
  {
    rb.(externalBuffers := Put(rb.externalBuffers, name, buffer))
  }

  /**
   * `attachExternalBuffer(name, values, offset, length)`: stages the floats
   * in a fresh direct buffer and puts it. An empty region is accepted here
   * and only refused when `build()` attaches it.
   */
  function AttachFloats(rb: ModelRunnerBuilder, name: string, values: Option<seq<F32>>, offset: int32, length: int32): (r: Result<ModelRunnerBuilder, Exception>)
    ensures r.Success? <==> StageFloats(values, offset, length).Success?
    ensures r.Success? ==>
      var bound := Lookup(r.value.externalBuffers, name);
      bound.Some? && bound.value.Some? && bound.value.value.direct &&
      Readable(bound.value.value) == Flatten(values.value[offset .. offset + length]) &&
      r.value.(externalBuffers := rb.externalBuffers) == rb
  {
    match StageFloats(values, offset, length)
    case Failure(err) => Failure(err)
    case Success(buffer) => Success(AttachBuffer(rb, name, Some(buffer)))
  }

  /** `attachExternalBuffer(name, values)`: the whole array; a null array throws before anything else. */
  function AttachAllFloats(rb: ModelRunnerBuilder, name: string, values: Option<seq<F32>>): (r: Result<ModelRunnerBuilder, Exception>)
    requires values.Some? ==> |values.value| <= INT_MAX
    ensures values.None? ==> r == Failure(Library(NullPointer))
    ensures values.Some? && 4 * |values.value| <= INT_MAX ==>
      r.Success? &&
      (var bound := Lookup(r.value.externalBuffers, name);
       bound.Some? && bound.value.Some? && Readable(bound.value.value) == Flatten(values.value))
  {
    if values.None? then Failure(Library(NullPointer))
    else
      assert values.value[0 .. |values.value|] == values.value;
      AttachFloats(rb, name, values, 0, |values.value| as int32)
  }

  // ---------------------------------------------------------------------
  // build()
  // ---------------------------------------------------------------------

  /** A binding holds a non-null, non-empty buffer: what `ModelBuilder` accepts. */
  ghost predicate Usable(entry: Entry) {
    entry.buffer.Some? && Remaining(entry.buffer.value) > 0
  }

  /** Every binding is usable. */
  ghost predicate Attachable(entries: seq<Entry>) {
    forall k :: 0 <= k < |entries| ==> Usable(entries[k])
  }

  /**
   * An order in which `entrySet()` may visit the map: every binding exactly
   * once. A `HashMap` fixes the actual order from hash codes and its table
   * capacity, neither of which is modelled, so `build()` takes the order as
   * a parameter and is stated for every such order.
   */
  ghost predicate IterationOrder(order: seq<Entry>, m: seq<Entry>) {
    multiset(order) == multiset(m)
  }

  /**
   * What `ModelBuilder.attachExternalBuffer` bridges one usable binding to:
   * a shared window on a direct buffer, a native copy otherwise, showing the
   * binding's readable bytes.
   */
  function Bridge(entry: Entry): (p: NativeBuffer)
    requires Usable(entry)
    ensures WellFormed(p) && Visible(p) == Readable(entry.buffer.value)
    ensures p.Shared? <==> entry.buffer.value.direct
  {
    CopyBuffer(entry.buffer).value
  }

  /**
   * The engine accepts the attach call of every binding, the k-th call being
   * made at step `step + k`.
   */
  ghost predicate Accepted(o: Oracle, step: nat, mb: ModelBuilder, entries: seq<Entry>)
    requires Attachable(entries)
  {
    forall k :: 0 <= k < |entries| ==>
      o(step + k, AttachExternalBuffer(mb.handle, entries[k].name, Bridge(entries[k]))).status == 0
  }

  /** The bridges of a list of bindings, in the list's order. */
  function Bridged(entries: seq<Entry>): (r: seq<NativeBuffer>)
    requires Attachable(entries)
    ensures |r| == |entries|
    ensures forall k :: 0 <= k < |entries| ==> r[k] == Bridge(entries[k])
  {
    if |entries| == 0 then []
    else
      assert forall k :: 1 <= k < |entries| ==> entries[1..][k - 1] == entries[k];
      [Bridge(entries[0])] + Bridged(entries[1..])
  }

  /** Bridging works binding by binding, so it distributes over concatenation. */
  lemma BridgedAppend(a: seq<Entry>, b: seq<Entry>)
    requires Attachable(a) && Attachable(b)
    ensures Attachable(a + b) && Bridged(a + b) == Bridged(a) + Bridged(b)
  {
    assert forall k :: 0 <= k < |a + b| ==> (a + b)[k] == if k < |a| then a[k] else b[k - |a|];
  }

  /** Visiting the bindings in another order leaves them all usable. */
  lemma AttachablePermutation(s: seq<Entry>, t: seq<Entry>)
    requires IterationOrder(t, s) && Attachable(s)
    ensures Attachable(t)
  {
    forall k | 0 <= k < |t|
      ensures Usable(t[k])
    {
      assert t[k] in multiset(s);
      var j :| 0 <= j < |s| && s[j] == t[k];
    }
  }

  /** A sequence with position `i` taken out. */
  function Without<T>(t: seq<T>, i: nat): (r: seq<T>)
    requires i < |t|
    ensures |r| == |t| - 1
    ensures forall k :: 0 <= k < |r| ==> r[k] == t[if k < i then k else k + 1]
    ensures multiset(t) == multiset(r) + multiset{t[i]}
  {
    assert t == t[..i] + [t[i]] + t[i + 1..];
    t[..i] + t[i + 1..]
  }

  /** Matching the head of one ordering with an element of the other leaves two orderings of the rest. */
  lemma MultisetTail<T>(s: seq<T>, t: seq<T>, i: nat)
    requires multiset(s) == multiset(t) && 0 < |s| && i < |t| && t[i] == s[0]
    ensures multiset(Without(s, 0)) == multiset(Without(t, i))
  {
    var a, b := multiset(Without(s, 0)), multiset(Without(t, i));
    assert a + multiset{s[0]} == b + multiset{s[0]};
    assert forall x :: a[x] == (a + multiset{s[0]})[x] - multiset{s[0]}[x];
    assert forall x :: b[x] == (b + multiset{s[0]})[x] - multiset{s[0]}[x];
  }

  /**
   * Mapping two orderings of the same elements through one function gives
   * two orderings of the same results.
   */
  lemma {:induction false} MapPermutation<A, B>(s: seq<A>, t: seq<A>, f: A --> B, u: seq<B>, v: seq<B>)
    requires multiset(s) == multiset(t)
    requires |u| == |s| && forall k :: 0 <= k < |s| ==> f.requires(s[k]) && u[k] == f(s[k])
    requires |v| == |t| && forall k :: 0 <= k < |t| ==> f.requires(t[k]) && v[k] == f(t[k])
    ensures multiset(u) == multiset(v)
    decreases |s|
  {
    if |s| == 0 {
      assert |multiset(t)| == 0;
    } else {
      assert s[0] in multiset(t);
      var i :| 0 <= i < |t| && t[i] == s[0];
      MultisetTail(s, t, i);
      MapPermutation(Without(s, 0), Without(t, i), f, Without(u, 0), Without(v, i));
      assert multiset(u) == multiset(Without(u, 0)) + multiset{u[0]};
      assert multiset(v) == multiset(Without(v, i)) + multiset{v[i]};
    }
  }

  /**
   * Whatever order the map is visited in, the bridges produced are the same
   * up to order: one per binding.
   */
  lemma BridgedPermutation(s: seq<Entry>, t: seq<Entry>)
    requires IterationOrder(t, s) && Attachable(s)
    ensures Attachable(t) && multiset(Bridged(t)) == multiset(Bridged(s))
  {
    AttachablePermutation(s, t);
    MapPermutation(s, t, Bridge, Bridged(s), Bridged(t));
  }

  /** Concatenation is associative. */
  lemma AppendAssociative<T>(a: seq<T>, b: seq<T>, c: seq<T>)
    ensures a + b + c == a + (b + c)
  {
  }

  /** Bridging the first binding, then the rest, bridges them all. */
  lemma BridgedCons(entries: seq<Entry>)
    requires |entries| > 0 && Usable(entries[0]) && Attachable(entries[1..])
    ensures Attachable(entries) && Bridged(entries) == [Bridge(entries[0])] + Bridged(entries[1..])
  {
    assert forall k :: 1 <= k < |entries| ==> entries[1..][k - 1] == entries[k];
  }

  /**
   * The loop over the map in `build()`: attaches each binding in the order
   * given, stopping at the first exception. On success every binding was
   * attachable and its bridge was appended to the model builder's list.
   */
  function AttachAll(mb: ModelBuilder, entries: seq<Entry>, e: Engine, o: Oracle): (r: (ModelBuilder, Engine, Outcome<Exception>))
    ensures r.1.live == e.live && r.1.next == e.next && r.1.memory == e.memory && r.1.scratch == e.scratch
    ensures r.0.handle == mb.handle
    ensures r.2.Pass? ==> Attachable(entries) && r.0.externalBuffers == mb.externalBuffers + Bridged(entries)
    ensures r.2.Pass? <==> Attachable(entries) && Accepted(o, e.step, mb, entries)
    ensures r.2.Pass? ==> r.1.step == e.step + |entries|
    decreases |entries|
  {
    if |entries| == 0 then (mb, e, Pass)
    else
      var (mb1, e1, outcome) := Models.AttachBuffer(mb, entries[0].name, entries[0].buffer, e, o);
      if outcome.Fail? then (mb1, e1, outcome)
      else
        var r := AttachAll(mb1, entries[1..], e1, o);
        assert r.2.Pass? ==> Attachable(entries) && r.0.externalBuffers == mb.externalBuffers + Bridged(entries) by {
          if r.2.Pass? {
            BridgedCons(entries);
            var p, rest := Bridge(entries[0]), Bridged(entries[1..]);
            AppendAssociative(mb.externalBuffers, [p], rest);
          }
        }
        assert r.2.Pass? <==> Attachable(entries) && Accepted(o, e.step, mb, entries) by {
          AcceptedCons(o, e.step, mb, mb1, entries);
        }
        r
  }

  /** `Accepted` over a non-empty list: the head's call, then the tail's from the next step. */
  lemma AcceptedCons(o: Oracle, step: nat, mb: ModelBuilder, mb1: ModelBuilder, entries: seq<Entry>)
    requires |entries| > 0 && mb1.handle == mb.handle
    ensures Attachable(entries) <==> Usable(entries[0]) && Attachable(entries[1..])
    ensures Attachable(entries) ==>
      (Accepted(o, step, mb, entries) <==>
        o(step, AttachExternalBuffer(mb.handle, entries[0].name, Bridge(entries[0]))).status == 0 &&
        Accepted(o, step + 1, mb1, entries[1..]))
  {
    assert forall k :: 1 <= k < |entries| ==> entries[1..][k - 1] == entries[k];
  }

  /**
   * The body of the `try` once both resources exist: attach every binding
   * in the iteration order, optimize the model data against the table,
   * build the model. Nothing is created unless the final build succeeds.
   */
  function Compile(rb: ModelRunnerBuilder, order: seq<Entry>, vpt: VariableProfileTable, mb: ModelBuilder, e: Engine, o: Oracle): (r: (ModelBuilder, Engine, Result<Model, Exception>))
    requires Valid(e)
    ensures Valid(r.1) && r.1.memory == e.memory && r.1.scratch == e.scratch
    ensures r.0.handle == mb.handle
    ensures r.2.Failure? ==> r.1.live == e.live && r.1.next == e.next
    ensures r.2.Success? ==>
      r.2.value.handle == Addr(e.next) && r.1.live == e.live + {e.next} && r.1.next == e.next + 1 &&
      Attachable(order) && r.2.value.externalBuffers == mb.externalBuffers + Bridged(order)
    ensures r.2.Success? ==>
      AttachAll(mb, order, e, o).2.Pass? &&
      ModelDatas.Optimize(rb.modelData, vpt, AttachAll(mb, order, e, o).1, o).1.Success? &&
      Invoked(ModelDataOptimize(rb.modelData.handle, vpt.handle)) in r.1.log
    ensures AttachAll(mb, order, e, o).2.Pass? && ModelDatas.Optimize(rb.modelData, vpt, AttachAll(mb, order, e, o).1, o).1.Failure? ==>
      r.2 == Failure(ModelDatas.Optimize(rb.modelData, vpt, AttachAll(mb, order, e, o).1, o).1.error)
    ensures AttachAll(mb, order, e, o).2.Fail? ==> r.2 == Failure(AttachAll(mb, order, e, o).2.error)
    ensures AttachAll(mb, order, e, o).2.Pass? ==>
      r.1 == OptimizeAndBuild(rb, vpt, AttachAll(mb, order, e, o).0, AttachAll(mb, order, e, o).1, o).0 &&
      r.2 == OptimizeAndBuild(rb, vpt, AttachAll(mb, order, e, o).0, AttachAll(mb, order, e, o).1, o).1
  {
    var attach := AttachAll(mb, order, e, o);
    if attach.2.Fail? then (attach.0, attach.1, Failure(attach.2.error))
    else
      var built := OptimizeAndBuild(rb, vpt, attach.0, attach.1, o);
      (attach.0, built.0, built.1)
  }

  /**
   * The last two steps of `build()`'s `try`: `modelData.optimize(vpt)`, then,
   * only if that passed, the model build from the model builder.
   */
  function OptimizeAndBuild(rb: ModelRunnerBuilder, vpt: VariableProfileTable, mb: ModelBuilder, e: Engine, o: Oracle): (r: (Engine, Result<Model, Exception>))
    requires Valid(e)
    ensures Valid(r.0) && r.0.memory == e.memory && r.0.scratch == e.scratch
    ensures r.1.Failure? ==> r.0.live == e.live && r.0.next == e.next
    ensures
      var optimize := ModelDataOptimize(rb.modelData.handle, vpt.handle);
      var build := BuildModel(mb.handle, rb.modelData.handle, rb.backendName, rb.backendConfig);
      (o(e.step, optimize).status != 0 ==> r.1.Failure? && r.0.log == e.log + [Invoked(optimize), ReadLastError]) &&
      (r.1.Success? <==> o(e.step, optimize).status == 0 && o(e.step + 1, build).status == 0) &&
      (r.1.Success? ==>
        r.1.value == Model(Addr(e.next), mb.externalBuffers) &&
        r.0.live == e.live + {e.next} && r.0.next == e.next + 1 &&
        r.0.log == e.log + [Invoked(optimize), Invoked(build)])
  {
    var (e1, optimized) := ModelDatas.Optimize(rb.modelData, vpt, e, o);
    if optimized.Failure? then (e1, Failure(optimized.error))
    else Models.Build(mb, rb.modelData, rb.backendName, rb.backendConfig, e1, o)
  }

  /**
   * `build()`: creates the table and the model builder as resources, runs
   * the pipeline, and closes the model builder then the table whatever
   * happened. The runner builder itself (model data, schema builder, map)
   * stays open and unchanged. `order` is the order `entrySet()` visits the
   * map in; the contract holds for every such order, and the model's list
   * holds one bridge per binding, in that order.
   */
  function Build(rb: ModelRunnerBuilder, order: seq<Entry>, e: Engine, o: Oracle): (r: (Engine, Result<ModelRunner, Exception>))
    requires Valid(e) && IterationOrder(order, rb.externalBuffers)
    ensures Valid(r.0) && r.0.memory == e.memory && r.0.scratch == e.scratch
    ensures r.1.Failure? ==> r.0.live == e.live
    ensures r.1.Success? ==>
      var m := r.1.value.model;
      m.handle.Addr? && m.handle.id !in e.live && r.0.live == e.live + {m.handle.id}
    ensures r.1.Success? ==>
      var m := r.1.value.model;
      Attachable(rb.externalBuffers) && Attachable(order) && m.externalBuffers == Bridged(order)
    ensures r.1.Success? ==>
      Invoked(ModelDataOptimize(rb.modelData.handle, Addr(e.next))) in r.0.log &&
      Invoked(DeleteVpt(Addr(e.next))) in r.0.log
    ensures
      var t := Profiles.Build(rb.vptBuilder, rb.modelData, e, o);
      (t.1.Failure? ==> r.1 == Failure(t.1.error)) &&
      (t.1.Success? ==>
        var b := Models.NewBuilder(t.1.value, t.0, o);
        (b.1.Failure? ==> r.1 == Failure(b.1.error)) &&
        (b.1.Success? ==>
          var c := Compile(rb, order, t.1.value, b.1.value, b.0, o).2;
          (c.Failure? ==> r.1 == Failure(c.error)) &&
          (c.Success? ==> r.1 == Success(ModelRunner(c.value)))))
  {
    var (e1, vpt) := Profiles.Build(rb.vptBuilder, rb.modelData, e, o);
    if vpt.Failure? then (e1, Failure(vpt.error))
    else
      var (e2, mb) := Models.NewBuilder(vpt.value, e1, o);
      if mb.Failure? then
        var (_, e3) := Profiles.CloseTable(vpt.value, e2);
        (e3, Failure(mb.error))
      else
        var (mb1, e3, model) := Compile(rb, order, vpt.value, mb.value, e2, o);
        var (_, e4) := Models.CloseBuilder(mb1, e3);
        var (_, e5) := Profiles.CloseTable(vpt.value, e4);
        if model.Failure? then (e5, Failure(model.error))
        else
          assert Attachable(rb.externalBuffers) by {
            AttachablePermutation(order, rb.externalBuffers);
          }
          (e5, Success(ModelRunner(model.value)))
  }

  /**
   * Whatever order `entrySet()` picks, a built model holds exactly one
   * bridge per binding of the map.
   */
  lemma BuildBridgesEveryBinding(rb: ModelRunnerBuilder, order: seq<Entry>, e: Engine, o: Oracle)
    requires Valid(e) && IterationOrder(order, rb.externalBuffers)
    requires Build(rb, order, e, o).1.Success?
    ensures Attachable(rb.externalBuffers)
    ensures multiset(Build(rb, order, e, o).1.value.model.externalBuffers) == multiset(Bridged(rb.externalBuffers))
  {
    BridgedPermutation(rb.externalBuffers, order);
  }

  /**
   * A null binding in the map makes `build()` fail whatever the iteration
   * order, and then nothing is left allocated.
   */
  lemma BuildRefusesNullBuffer(rb: ModelRunnerBuilder, order: seq<Entry>, k: nat, e: Engine, o: Oracle)
    requires Valid(e) && IterationOrder(order, rb.externalBuffers)
    requires k < |rb.externalBuffers| && rb.externalBuffers[k].buffer.None?
    ensures Build(rb, order, e, o).1.Failure? && Build(rb, order, e, o).0.live == e.live
  {
  }
}

=== FILE: runners.dfy ===
/**
 * `ModelRunner` (menoh/.../ModelRunner.java): the one-object facade that
 * loads a model, and runs it after copying input buffers into the model's
 * variables.
 */
module Runners {
  import opened Wrappers
  import opened JavaInt
  import opened Errors
  import opened Buffers
  import opened Native
  import opened Handles
  import opened Variables
  import Profiles
  import ModelDatas
  import Models

  /** The backend a new runner builder starts with. */
  const DefaultBackendName: string := "mkldnn"

  /** The backend configuration a new runner builder starts with. */
  const DefaultBackendConfig: string := ""

  /** `close()`: closes the compiled model. */
  function Close(runner: ModelRunner, e: Engine): (r: (ModelRunner, Engine))
    ensures r.0.model.handle == Null
    ensures runner.model.handle.Addr? ==> r.1.live == e.live - {runner.model.handle.id}
    ensures runner.model.handle == Null ==> r == (runner, e)
    ensures Valid(e) ==> Valid(r.1)
  {
    var (m, e1) := Models.CloseModel(runner.model, e);
    (ModelRunner(m), e1)
  }

  /**
   * `fromOnnxFile(path)`: loads the model data, then creates a schema
   * builder; if the second step throws, the model data is closed before the
   * exception propagates, so a failure leaves nothing allocated.
   */
  function FromOnnxFile(path: string, e: Engine, o: Oracle): (r: (Engine, Result<ModelRunnerBuilder, Exception>))
    requires Valid(e)
    ensures Valid(r.0) && r.0.memory == e.memory && r.0.scratch == e.scratch
    ensures r.1.Failure? ==> r.0.live == e.live
    ensures r.1.Success? ==>
      var rb := r.1.value;
      rb.modelData.handle == Addr(e.next) && rb.vptBuilder.handle == Addr(e.next + 1) &&
      r.0.live == e.live + {e.next, e.next + 1} &&
      rb.backendName == DefaultBackendName && rb.backendConfig == DefaultBackendConfig &&
      rb.externalBuffers == []
    ensures r.1.Success? <==>
      o(e.step, MakeModelDataFromOnnx(path)).status == 0 && o(e.step + 1, MakeVptBuilder).status == 0
  {
    var (e1, md) := ModelDatas.FromOnnxFile(path, e, o);
    if md.Failure? then (e1, Failure(md.error))
    else
      var (e2, vb) := Profiles.NewBuilder(e1, o);
      if vb.Failure? then
        var (_, e3) := ModelDatas.Close(md.value, e2);
        (e3, Failure(vb.error))
      else
        (e2, Success(ModelRunnerBuilder(md.value, vb.value, DefaultBackendName, DefaultBackendConfig, [])))
  }

  /** `variable(name)`: the model's variable of that name. */
  function GetVariable(runner: ModelRunner, name: string, e: Engine, o: Oracle): (r: (Engine, Result<Variable, Exception>))
    ensures r == Models.GetVariable(runner.model, name, e, o)
    ensures r.0.live == e.live && r.0.memory == e.memory
    ensures o(e.step, ModelGetDtype(runner.model.handle, name)).status != 0 ==> r.1.Failure?
    ensures r.1.Success? ==>
      var dims := DimsOf(r.1.value.dims);
      DTypes.Id(r.1.value.dtype) == o(e.step, ModelGetDtype(runner.model.handle, name)).value &&
      |dims| == o(e.step + 1, ModelGetDimsSize(runner.model.handle, name)).value &&
      (forall i :: 0 <= i < |dims| ==> dims[i] == o(e.step + 2 + i, ModelGetDimsAt(runner.model.handle, name, i)).value) &&
      r.1.value.bufferHandle == o(e.step + 2 + |dims|, ModelGetBufferHandle(runner.model.handle, name)).pointer
  {
    Models.GetVariable(runner.model, name, e, o)
  }

  /** The message for data longer than the variable's buffer. */
  function TooLong(varLen: int64, name: string): string {
    "The data with length > " + Decimal(varLen) + " can't be assigned to the variable `" + name + "`."
  }

  /** Memory keeps its addresses and the length of every region. */
  ghost predicate SameShape(m0: map<nat, seq<byte>>, m1: map<nat, seq<byte>>) {
    m1.Keys == m0.Keys && forall a :: a in m0 ==> |m1[a]| == |m0[a]|
  }

  /**
   * `varBuf.clear(); varBuf.put(dataBuf.duplicate())`: the first `|bytes|`
   * bytes of region `a` become `bytes`; the rest of the region and every
   * other region keep theirs.
   */
  function WritePrefix(memory: map<nat, seq<byte>>, a: nat, bytes: seq<byte>): (r: map<nat, seq<byte>>)
    requires a in memory && |bytes| <= |memory[a]|
    ensures SameShape(memory, r) && a in r
    ensures r[a][..|bytes|] == bytes && r[a][|bytes|..] == memory[a][|bytes|..]
    ensures forall b :: b in memory && b != a ==> r[b] == memory[b]
  {
    var region := bytes + memory[a][|bytes|..];
    assert region[..|bytes|] == bytes && region[|bytes|..] == memory[a][|bytes|..];
    memory[a := region]
  }

  /**
   * One step of `assignToVariables`: the data's remaining bytes are copied
   * to the start of the variable's buffer, which must be at least as long.
   * The source buffer's position is left alone, the rest of the variable
   * buffer and every other region keep their bytes.
   */
  function AssignOne(m: Model, entry: Entry, e: Engine, o: Oracle): (r: (Engine, Outcome<Exception>))
    ensures r.0.live == e.live && r.0.next == e.next && r.0.scratch == e.scratch
    ensures SameShape(e.memory, r.0.memory)
    ensures entry.buffer.None? ==> r == (e, Fail(Library(NullPointer)))
    ensures r.1.Fail? ==> r.0.memory == e.memory
    ensures entry.buffer.Some? && Models.GetVariable(m, entry.name, e, o).1.Success? &&
            BufferLength(Models.GetVariable(m, entry.name, e, o).1.value).Success? ==>
      var varLen := BufferLength(Models.GetVariable(m, entry.name, e, o).1.value).value;
      (varLen < Remaining(entry.buffer.value) <==> r.1 == Fail(MenohRunnerException(TooLong(varLen, entry.name))))
    ensures r.1.Pass? ==>
      var data := entry.buffer.value;
      var n := Remaining(data);
      var v := Models.GetVariable(m, entry.name, e, o).1;
      entry.buffer.Some? && v.Success? && v.value.bufferHandle.Addr? &&
      var a := v.value.bufferHandle.id;
      a in e.memory && BufferLength(v.value).Success? && n <= BufferLength(v.value).value <= |e.memory[a]| &&
      r.0.memory[a][..n] == Readable(data) && r.0.memory[a][n..] == e.memory[a][n..] &&
      forall b :: b in e.memory && b != a ==> r.0.memory[b] == e.memory[b]
  {
    match entry.buffer
    case None => (e, Fail(Library(NullPointer)))
    case Some(data) =>
      var dataLen := Remaining(data);
      var (e1, v) := Models.GetVariable(m, entry.name, e, o);
      if v.Failure? then (e1, Fail(v.error))
      else
        match BufferLength(v.value)
        case Failure(err) => (e1, Fail(err))
        case Success(varLen) =>
          if varLen < dataLen then (e1, Fail(MenohRunnerException(TooLong(varLen, entry.name))))
          else
            match View(v.value, e1.memory)
            case Failure(err) => (e1, Fail(err))
            case Success(_) =>
              (e1.(memory := WritePrefix(e1.memory, v.value.bufferHandle.id, Readable(data))), Pass)
  }

  /**
   * `assignToVariables(data)`: one `AssignOne` per binding, `data` listing
   * the caller's map in its `entrySet()` order (any order: the contract holds
   * for every list); the first exception stops the loop, and the bytes
   * already copied stay copied.
   */
  function AssignToVariables(m: Model, data: seq<Entry>, e: Engine, o: Oracle): (r: (Engine, Outcome<Exception>))
    ensures r.0.live == e.live && r.0.next == e.next && r.0.scratch == e.scratch
    ensures SameShape(e.memory, r.0.memory)
    ensures r.1.Pass? ==> forall k :: 0 <= k < |data| ==> data[k].buffer.Some?
    ensures |data| == 0 ==> r == (e, Pass)
    decreases |data|
  {
    if |data| == 0 then (e, Pass)
    else
      var (e1, outcome) := AssignOne(m, data[0], e, o);
      if outcome.Fail? then (e1, outcome)
      else
        var r := AssignToVariables(m, data[1..], e1, o);
        AssignStep(data, e.memory, e1.memory, r.0.memory, r.1);
        r
  }

  /** One binding assigned, then the rest: the shape is kept and every binding assigned was non-null. */
  lemma AssignStep(data: seq<Entry>, m0: map<nat, seq<byte>>, m1: map<nat, seq<byte>>, m2: map<nat, seq<byte>>, outcome: Outcome<Exception>)
    requires |data| > 0 && data[0].buffer.Some?
    requires SameShape(m0, m1) && SameShape(m1, m2)
    requires outcome.Pass? ==> forall k :: 0 <= k < |data| - 1 ==> data[1..][k].buffer.Some?
    ensures SameShape(m0, m2)
    ensures outcome.Pass? ==> forall k :: 0 <= k < |data| ==> data[k].buffer.Some?
  {
    assert forall k :: 1 <= k < |data| ==> data[k] == data[1..][k - 1];
  }

  /**
   * Reading back what `AssignOne` wrote: after a successful assignment the
   * variable's view of the new memory begins with the data's readable bytes.
   */
  lemma AssignThenView(m: Model, entry: Entry, e: Engine, o: Oracle)
    requires AssignOne(m, entry, e, o).1.Pass?
    ensures entry.buffer.Some? && Models.GetVariable(m, entry.name, e, o).1.Success?
    ensures var v := Models.GetVariable(m, entry.name, e, o).1.value;
      var view := View(v, AssignOne(m, entry, e, o).0.memory);
      view.Success? && Remaining(entry.buffer.value) <= |view.value| &&
      view.value[..Remaining(entry.buffer.value)] == Readable(entry.buffer.value)
  {
    var v := Models.GetVariable(m, entry.name, e, o).1.value;
    var memory := AssignOne(m, entry, e, o).0.memory;
    var a, n := v.bufferHandle.id, Remaining(entry.buffer.value);
    assert a in memory && |memory[a]| == |e.memory[a]|;
    var view := View(v, memory);
    assert view.Success?;
    assert view.value[..n] == memory[a][..n];
  }

  /**
   * Splitting the map: assigning `d1 + d2` is assigning `d1`, then, only if
   * that passed, assigning `d2` from the memory it left.
   */
  lemma {:induction false} AssignToVariablesAppend(m: Model, d1: seq<Entry>, d2: seq<Entry>, e: Engine, o: Oracle)
    ensures AssignToVariables(m, d1 + d2, e, o) ==
      (var (e1, r1) := AssignToVariables(m, d1, e, o);
       if r1.Fail? then (e1, r1) else AssignToVariables(m, d2, e1, o))
    decreases |d1|
  {
    if |d1| == 0 {
      assert d1 + d2 == d2;
    } else {
      assert (d1 + d2)[0] == d1[0];
      assert (d1 + d2)[1..] == d1[1..] + d2;
      var (e1, outcome) := AssignOne(m, d1[0], e, o);
      if outcome.Pass? {
        AssignToVariablesAppend(m, d1[1..], d2, e1, o);
      }
    }
  }

  /** A one-binding map is assignment by exactly one `AssignOne`. */
  lemma AssignSingleton(m: Model, entry: Entry, e: Engine, o: Oracle)
    ensures AssignToVariables(m, [entry], e, o) == AssignOne(m, entry, e, o)
  {
    var (e1, outcome) := AssignOne(m, entry, e, o);
    if outcome.Pass? {
      assert [entry][1..] == [];
    }
  }

  /** `run()`: runs the model. */
  function Run(runner: ModelRunner, e: Engine, o: Oracle): (r: (Engine, Outcome<Exception>))
    ensures r == Models.Run(runner.model, e, o)
    ensures r.0.live == e.live && r.0.memory == e.memory
    ensures r.1 == CheckError(o(e.step, ModelRun(runner.model.handle)).status, o(e.step, ModelRun(runner.model.handle)).message)
    ensures r.1.Pass? <==> o(e.step, ModelRun(runner.model.handle)).status == 0
    ensures r.1.Pass? ==> r.0.log == e.log + [Invoked(ModelRun(runner.model.handle))]
  {
    Models.Run(runner.model, e, o)
  }

  /**
   * `run(buffers)`: assigns every binding, then runs the model once. A
   * failed assignment makes no further engine call, so the model is not run.
   */
  function RunMap(runner: ModelRunner, data: seq<Entry>, e: Engine, o: Oracle): (r: (Engine, Outcome<Exception>))
    ensures r.0.live == e.live && r.0.next == e.next && r.0.scratch == e.scratch
    ensures SameShape(e.memory, r.0.memory)
    ensures AssignToVariables(runner.model, data, e, o).1.Fail? ==> r == AssignToVariables(runner.model, data, e, o)
    ensures AssignToVariables(runner.model, data, e, o).1.Pass? ==> r == Run(runner, AssignToVariables(runner.model, data, e, o).0, o)
    ensures r.1.Pass? <==>
      AssignToVariables(runner.model, data, e, o).1.Pass? &&
      o(AssignToVariables(runner.model, data, e, o).0.step, ModelRun(runner.model.handle)).status == 0
    ensures r.1.Pass? ==>
      (forall k :: 0 <= k < |data| ==> data[k].buffer.Some?) &&
      |r.0.log| > 0 && r.0.log[|r.0.log| - 1] == Invoked(ModelRun(runner.model.handle)) &&
      r.0.memory == AssignToVariables(runner.model, data, e, o).0.memory
  {
    var (e1, assignment) := AssignToVariables(runner.model, data, e, o);
    if assignment.Fail? then (e1, assignment) else Run(runner, e1, o)
  }

  /**
   * `run(name, buffer)`: a one-binding map. On success the variable's buffer
   * starts with the data's remaining bytes and the model was run.
   */
  function RunBuffer(runner: ModelRunner, name: string, buffer: Option<ByteBuffer>, e: Engine, o: Oracle): (r: (Engine, Outcome<Exception>))
    ensures r.0.live == e.live && SameShape(e.memory, r.0.memory)
    ensures buffer.None? ==> r == (e, Fail(Library(NullPointer)))
    ensures r == RunMap(runner, [Entry(name, buffer)], e, o)
    ensures r.1.Pass? ==>
      var v := Models.GetVariable(runner.model, name, e, o).1;
      buffer.Some? && v.Success? && v.value.bufferHandle.Addr? && v.value.bufferHandle.id in e.memory &&
      Remaining(buffer.value) <= |e.memory[v.value.bufferHandle.id]| &&
      r.0.memory[v.value.bufferHandle.id][..Remaining(buffer.value)] == Readable(buffer.value) &&
      |r.0.log| > 0 && r.0.log[|r.0.log| - 1] == Invoked(ModelRun(runner.model.handle))
  {
    AssignSingleton(runner.model, Entry(name, buffer), e, o);
    RunMap(runner, [Entry(name, buffer)], e, o)
  }

  /**
   * `run(name, values, offset, length)`: stages the floats in a fresh direct
   * buffer, then `run(name, buffer)`. A staging exception makes no engine
   * call at all.
   */
  function RunFloats(runner: ModelRunner, name: string, values: Option<seq<F32>>, offset: int32, length: int32, e: Engine, o: Oracle): (r: (Engine, Outcome<Exception>))
    ensures r.0.live == e.live && SameShape(e.memory, r.0.memory)
    ensures StageFloats(values, offset, length).Failure? ==> r == (e, Fail(StageFloats(values, offset, length).error))
    ensures StageFloats(values, offset, length).Success? ==>
      r == RunBuffer(runner, name, Some(StageFloats(values, offset, length).value), e, o)
    ensures r.1.Pass? ==>
      var v := Models.GetVariable(runner.model, name, e, o).1;
      values.Some? && 0 <= offset && 0 <= length && offset + length <= |values.value| &&
      v.Success? && v.value.bufferHandle.Addr? && v.value.bufferHandle.id in e.memory &&
      4 * length <= |e.memory[v.value.bufferHandle.id]| &&
      r.0.memory[v.value.bufferHandle.id][..4 * length] == Flatten(values.value[offset .. offset + length])
  {
    match StageFloats(values, offset, length)
    case Failure(err) => (e, Fail(err))
    case Success(buffer) =>
      assert Remaining(buffer) == 4 * length;
      RunBuffer(runner, name, Some(buffer), e, o)
  }

  /** `run(name, values)`: the whole array; a null array throws before anything else. */
  function RunAllFloats(runner: ModelRunner, name: string, values: Option<seq<F32>>, e: Engine, o: Oracle): (r: (Engine, Outcome<Exception>))
    requires values.Some? ==> |values.value| <= INT_MAX
    ensures r.0.live == e.live && SameShape(e.memory, r.0.memory)
    ensures values.None? ==> r == (e, Fail(Library(NullPointer)))
    ensures values.Some? ==> r == RunFloats(runner, name, values, 0, |values.value| as int32, e, o)
    ensures r.1.Pass? ==>
      var v := Models.GetVariable(runner.model, name, e, o).1;
      values.Some? && v.Success? && v.value.bufferHandle.Addr? && v.value.bufferHandle.id in e.memory &&
      4 * |values.value| <= |e.memory[v.value.bufferHandle.id]| &&
      r.0.memory[v.value.bufferHandle.id][..4 * |values.value|] == Flatten(values.value)
  {
    if values.None? then (e, Fail(Library(NullPointer)))
    else
      assert values.value[0 .. |values.value|] == values.value;
      RunFloats(runner, name, values, 0, |values.value| as int32, e, o)
  }
}

=== FILE: variables.dfy ===
/**
 * The value objects handed to callers: `Variable` (menoh/.../Variable.java),
 * a compiled model's variable with a pointer to its native buffer, and
 * `VariableProfile` (menoh/.../VariableProfile.java), a resolved schema entry.
 */
module Variables {
  import opened Wrappers
  import opened JavaInt
  import opened Errors
  import opened DTypes
  import opened Buffers
  import opened Native

  /** A variable of a compiled model; `dims` is a nullable `int[]`. */
  datatype Variable = Variable(dtype: DType, dims: Option<seq<int32>>, bufferHandle: Ptr)

  /** A resolved input or output profile; `dims` is a nullable `int[]`. */
  datatype VariableProfile = VariableProfile(dtype: DType, dims: Option<seq<int32>>)

  /**
   * `dims()` of both classes: a fresh array equal to the stored one, or an
   * empty array when none is stored. As values are immutable here, a caller
   * changing the result cannot reach the stored dims.
   */
  function DimsOf(dims: Option<seq<int32>>): (r: seq<int32>)
    ensures dims.Some? ==> r == dims.value
    ensures dims.None? ==> |r| == 0
  {
    match dims
    case Some(d) => d
    case None => []
  }

  /** `VariableProfile.dtype()` returns the data type it was constructed with, and `dims()` its dims. */
  lemma ProfileAccessors(dtype: DType, dims: Option<seq<int32>>)
    ensures VariableProfile(dtype, dims).dtype == dtype
    ensures DimsOf(VariableProfile(dtype, dims).dims) == (if dims.Some? then dims.value else [])
  {
  }

  /** The exact product of the dims. */
  function Prod(dims: seq<int>): int {
    if dims == [] then 1 else Prod(dims[..|dims| - 1]) * dims[|dims| - 1]
  }

  /** The message of both "buffer is empty" failures. */
  const EmptyBuffer: Exception := MenohException(UNDEFINED, "buffer is empty", None)

  /**
   * `bufferLength()`: `dtype.size()` times the product of the dims, the
   * product accumulated in `long` arithmetic. Rank 0 and a non-positive
   * (wrapped) product fail with "buffer is empty"; null dims throw.
   */
  function BufferLength(v: Variable): (r: Result<int64, Exception>)
    ensures v.dims.None? ==> r == Failure(Library(NullPointer))
    ensures v.dims.Some? ==>
      (r.Success? <==> |v.dims.value| > 0 && WrapLong(Prod(v.dims.value)) > 0)
    ensures v.dims.Some? && r.Failure? ==> r.error == EmptyBuffer
    ensures v.dims.Some? && |v.dims.value| > 0 && 0 < Prod(v.dims.value) && Size(v.dtype) * Prod(v.dims.value) <= LONG_MAX ==>
      r == Success(Size(v.dtype) * Prod(v.dims.value))
  {
    match v.dims
    case None => Failure(Library(NullPointer))
    case Some(dims) =>
      if |dims| > 0 then
        var length := WrapLong(Prod(dims));
        if length <= 0 then Failure(EmptyBuffer)
        else Success(WrapLong(Size(v.dtype) * length))
      else Failure(EmptyBuffer)
  }

  /** The loop of `bufferLength()` as written, `length *= d` in `long`, agrees with `BufferLength`. */
  method ComputeBufferLength(v: Variable) returns (r: Result<int64, Exception>)
    ensures r == BufferLength(v)
  {
    if v.dims.None? {
      return Failure(Library(NullPointer));
    }
    var dims := v.dims.value;
    if |dims| > 0 {
      var elementSize: int64 := Size(v.dtype);
      var length: int64 := 1;
      var i := 0;
      while i < |dims|
        invariant 0 <= i <= |dims|
        invariant length == WrapLong(Prod(dims[..i]))
      {
        assert dims[..i + 1][..i] == dims[..i];
        WrapLongMul(Prod(dims[..i]), dims[i]);
        length := WrapLong(length * dims[i]);
        i := i + 1;
      }
      assert dims[..|dims|] == dims;
      if length <= 0 {
        return Failure(EmptyBuffer);
      }
      return Success(WrapLong(elementSize * length));
    } else {
      return Failure(EmptyBuffer);
    }
  }

  /** The number of negative dims. */
  function Negatives(dims: seq<int>): nat {
    if dims == [] then 0 else Negatives(dims[..|dims| - 1]) + (if dims[|dims| - 1] < 0 then 1 else 0)
  }

  /** The product is positive exactly when no dim is zero and an even number of dims are negative. */
  lemma {:induction false} ProdPositive(dims: seq<int>)
    ensures Prod(dims) > 0 <==> (forall i :: 0 <= i < |dims| ==> dims[i] != 0) && Negatives(dims) % 2 == 0
    ensures Prod(dims) < 0 <==> (forall i :: 0 <= i < |dims| ==> dims[i] != 0) && Negatives(dims) % 2 == 1
  {
    if dims != [] {
      var init := dims[..|dims| - 1];
      var last := dims[|dims| - 1];
      ProdPositive(init);
      assert forall i :: 0 <= i < |init| ==> init[i] == dims[i];
      var p := Prod(init);
      assert Prod(dims) == p * last;
      if p > 0 && last > 0 { assert p * last > 0; }
      if p > 0 && last < 0 { assert p * last < 0; }
      if p < 0 && last > 0 { assert p * last < 0; }
      if p < 0 && last < 0 { assert p * last > 0; }
      if p == 0 || last == 0 { assert p * last == 0; }
      if p == 0 {
        var k :| 0 <= k < |init| && init[k] == 0;
        assert dims[k] == 0;
      }
    }
  }

  /**
   * Without `long` overflow, `bufferLength()` accepts a non-empty shape
   * exactly when no dim is zero and an even number of dims are negative, so
   * two negative dims are accepted.
   */
  lemma BufferLengthSign(v: Variable)
    requires v.dims.Some? && |v.dims.value| > 0
    requires LONG_MIN <= Prod(v.dims.value) <= LONG_MAX
    ensures BufferLength(v).Success? <==>
      (forall i :: 0 <= i < |v.dims.value| ==> v.dims.value[i] != 0) && Negatives(v.dims.value) % 2 == 0
  {
    ProdPositive(v.dims.value);
  }

  /**
   * `buffer()`: a view of `bufferLength()` bytes at the variable's buffer
   * pointer in engine memory. It fails when `bufferLength()` fails, and when
   * the pointer does not address that many bytes (including a length that
   * wrapped negative).
   */
  function View(v: Variable, memory: map<nat, seq<byte>>): (r: Result<seq<byte>, Exception>)
    ensures BufferLength(v).Failure? ==> r == Failure(BufferLength(v).error)
    ensures r.Success? ==> BufferLength(v).Success? && |r.value| == BufferLength(v).value
    ensures r.Success? ==>
      v.bufferHandle.Addr? && v.bufferHandle.id in memory &&
      0 <= BufferLength(v).value <= |memory[v.bufferHandle.id]| &&
      r.value == memory[v.bufferHandle.id][..BufferLength(v).value]
  {
    match BufferLength(v)
    case Failure(e) => Failure(e)
    case Success(length) =>
      match v.bufferHandle
      case Null => Failure(Library(NullPointer))
      case Addr(a) =>
        if 0 <= length && a in memory && length <= |memory[a]| then Success(memory[a][..length])
        else Failure(Library(NativeFault))
  }
}

=== FILE: wrappers.dfy ===
/** Failure-carrying datatypes used to model Java's checked and unchecked exceptions. */
module Wrappers {

  /** A value that may be absent: Java's nullable references. */
  datatype Option<+T> = None | Some(value: T)

  /** The outcome of a Java call that either returns a value or throws. */
  datatype Result<+R, +E> = Success(value: R) | Failure(error: E)

  /** The outcome of a Java `void` call that either returns normally or throws. */
  datatype Outcome<+E> = Pass | Fail(error: E)
}
